=== FILE: README.md ===
# Modexia asynchronous client, modelled in Dafny

This project models `AsyncModexiaClient`, the asynchronous Python client of the Modexia
agent-payment service. The model covers these parts of the client:

- **Base-URL resolution.** An explicit argument wins, then the `MODEXIA_BASE_URL`
  environment value, then the API key's `mx_live_` / `mx_test_` prefix, and local
  development otherwise.
- **The retry executor `_request`.** It makes at most four attempts. A transport
  failure or a 500/502/503/504 waits 0.5 s, 1 s and 2 s before the next attempt.
  401/403 raise an `AuthError`. Any other status of 400 or more, except 402, raises a
  `PaymentError`. An empty body reads as `{}`. A transport failure on the last
  attempt raises a `NetworkError`.
- **Payments (`transfer`).** When the caller gives no idempotency key, the key is the
  SHA-256 of `recipient_amount_hour`. With `wait` set and a successful submission,
  the client hands off to the settlement poller.
- **The settlement poller `_poll_status`.** It polls every two seconds within a
  30-second window. COMPLETE/COMPLETED in any case settles, FAILED raises, and
  anything else keeps polling. When the window closes it returns a PENDING receipt.
- **The 402 paywall negotiation behind `smart_fetch`.** It finds
  `amount="…"` and `destination="…"` in `WWW-Authenticate` and pays with a waiting
  transfer. It then adds `Authorization: L402 <txId>` and `X-Payment-Proof` to the
  caller's headers and replays the request once.
- **The lazy identity cache** behind `retrieve_balance` / `validate_session`.
- **History reshaping** in `get_history`.

The model has two layers:

- **Pure specification functions**, one module per component: `Config`, `Retry`,
  `Settlement`, `Payments`, `Paywall`, `History` and `Identity`. Each specifies its
  component's behaviour, and lemmas state what the component promises.
- **The `AsyncClient.Client` class**, which keeps the client's mutable state as
  fields:
  - `trace`: every request handed to the transport and every delay asked for.
  - `identity`: the identity cache.

  Its methods are the loops of the source: the attempt loop, the polling loop, and
  the history append loop. They also update the caller's header dictionary in place
  (`HeaderDict`). Each method is proved equal to its specification function.

The environment is passed in as parameters:

- **Transport.** A function from the number of calls made so far to an `Outcome`:
  a transport failure (`httpx.RequestError`) or an HTTP response.
- **Clock.** `Env.hour` is the `%Y-%m-%d-%H` stamp. `Env.pollBudget` is the number of
  passes the poller's 30-second check allows.
- **SHA-256.** `Env.sha256`.
- **`str(float(x))`.** `Env.floatText`. It yields `None` where `float` raises.

Python exceptions that the source lets escape are modelled as an explicit error,
`Escaped(kind)`. Examples are a body that is not JSON, or `.get` on a value that is
not a dictionary.

Behaviour of the code worth noting:

- **An absent `txId`.** The receipt returned without polling carries whatever `txId`
  the server sent, possibly none (`async_client.py:140`). The code does not
  guarantee a non-empty `txId` for every non-FAILED receipt.
- **The wire amount.** The amount is sent as `str(amount)` of a Python float
  (`async_client.py:131`), not as an exact decimal.
- **Escaping exceptions.** Decoding errors and attribute errors reach the caller
  untyped. They are modelled as `Escaped`.
- **No retry in `smart_fetch`.** A transport failure of `smart_fetch`'s own GETs
  becomes a `NetworkError` at once, without retry (`async_client.py:208-209`).
- **The intent separator.** The idempotency intent is joined with underscores
  (`async_client.py:126`).

## Model

| member | source | states |
|---|---|---|
| Config.ResolveBaseUrl | SDKs/pythonSdk/src/modexia/async_client.py:46-55 | a non-empty explicit URL wins, else a non-empty environment URL, else the live URL for `mx_live_` keys, the sandbox for `mx_test_` keys and localhost otherwise; never empty |
| Config.PrefixesExclusive | SDKs/pythonSdk/src/modexia/async_client.py:50-53 | no key has both the live and the test prefix, so the order of the two prefix rules is immaterial |
| Config.TestKeyUsesSandbox | SDKs/pythonSdk/tests/test_async.py:16-19 | a `mx_test_` key with no override resolves to the sandbox URL |
| Config.SessionHeaders | SDKs/pythonSdk/src/modexia/async_client.py:59-67 | the headers the session client is configured with are exactly the key, content-type and user-agent headers, the key header being the API key |
| Config.FetchCall | SDKs/pythonSdk/src/modexia/async_client.py:185-193 | an absolute URL bypasses the base URL and carries only the caller's headers; a relative one goes through the base URL with exactly the session header names plus the caller's, the caller's values winning and the session values kept for every name the caller does not give |
| PyValues.Upper | SDKs/pythonSdk/src/modexia/async_client.py:149 | upper-casing keeps the length and upper-cases each character independently |
| PyValues.UpperIdempotent | SDKs/pythonSdk/src/modexia/async_client.py:149 | upper-casing an upper-cased state changes nothing |
| PyValues.IntText | SDKs/pythonSdk/src/modexia/async_client.py:162 | the text of the history limit is a minus sign exactly for negative limits, followed by decimal digits without a leading zero whose value (by DigitsValue, read left to right) is the limit's magnitude |
| PyValues.Decimal | SDKs/pythonSdk/src/modexia/async_client.py:162 | the decimal text of a natural number is non-empty, all digits, without a leading zero, and its digit value is the number |
| Retry.Classify | SDKs/pythonSdk/src/modexia/async_client.py:88-111 | one attempt backs off exactly when the outcome is retryable and attempts remain, for 500·2^attempt ms; 401/403 end with AuthError("Unauthorized: "+text); any other status of 400 or more except 402, not retried, ends with PaymentError carrying the rejection detail; a last-attempt transport failure ends with NetworkError; success only from a non-rejected answer; a NetworkError only from a transport failure |
| Retry.Excerpt | SDKs/pythonSdk/src/modexia/async_client.py:102 | the excerpt is the prefix of the body of length min(|body|, 512) |
| Retry.Body | SDKs/pythonSdk/src/modexia/async_client.py:106 | an empty body reads as `{}`; a non-empty body that decodes reads as the decoded JSON; a non-empty body that does not decode is the escaping decode error |
| Retry.RejectionDetail | SDKs/pythonSdk/src/modexia/async_client.py:99-103 | a rejection whose body decodes to a dictionary carries its "error" entry, defaulting to the body text; otherwise it carries "HTTP <status> at <endpoint>: <first 512 characters>" |
| Retry.Execute | SDKs/pythonSdk/src/modexia/async_client.py:82-111 | the executor makes at least one and at most four transport calls |
| Retry.ExecuteTrace | SDKs/pythonSdk/src/modexia/async_client.py:86-93 | every call the executor makes is the same request, and between consecutive calls it sleeps 0.5 s, 1 s, 2 s in order |
| Retry.BackedOffTrace | SDKs/pythonSdk/src/modexia/async_client.py:91-93 | n back-offs append n copies of the request and the n doubling delays |
| Retry.RetriesCarryOn | SDKs/pythonSdk/src/modexia/async_client.py:91-93 | n retryable outcomes in a row hand the request on unchanged to attempt n, with the back-offs recorded |
| Retry.BackoffStep | SDKs/pythonSdk/src/modexia/async_client.py:91-93 | a retryable outcome with attempts left records the call and the delay and moves to the next attempt |
| Retry.RecoversAfterTransient | SDKs/pythonSdk/src/modexia/async_client.py:86-106 | up to three transient failures followed by an accepted response yield that response's body after n+1 calls and n back-offs |
| Retry.ExhaustsAfterFourAttempts | SDKs/pythonSdk/src/modexia/async_client.py:86-111 | four retryable outcomes exhaust the budget: the last decides NetworkError (transport) or PaymentError (5xx), after four calls and sleeps 500, 1000, 2000 ms |
| Retry.OkOnlyFromAccepted | SDKs/pythonSdk/src/modexia/async_client.py:95-106 | a successful result always comes from a last call answered with a status below 400 or 402 |
| Retry.UnauthorizedIsFinal | SDKs/pythonSdk/src/modexia/async_client.py:95-96 | 401/403 raise AuthError at once, with no retry and no further call |
| Retry.RejectedIsFinal | SDKs/pythonSdk/src/modexia/async_client.py:98-104 | a status of 400 or more other than 401/403/402 that is not retried raises PaymentError with the rejection detail at once, after one call |
| Retry.PaymentRequiredIsReturned | SDKs/pythonSdk/src/modexia/async_client.py:98-106 | a 402 is not an error to the executor: its body is returned on the first call |
| Settlement.ReadStateIgnoresCase | SDKs/pythonSdk/src/modexia/async_client.py:149-153 | states differing only in letter case read alike |
| Settlement.ReadState | SDKs/pythonSdk/src/modexia/async_client.py:149-153 | a state settles exactly when its upper-case form is COMPLETE or COMPLETED, and fails exactly when it is FAILED |
| Settlement.ReadStateOfUpper | SDKs/pythonSdk/src/modexia/async_client.py:149 | a state reads the same as its upper-case form |
| Settlement.UpperIs | SDKs/pythonSdk/src/modexia/async_client.py:149 | a string whose characters upper-case pointwise to another is upper-cased to it |
| Settlement.LowerCaseCompleteSettles | SDKs/pythonSdk/src/modexia/async_client.py:149-152 | "complete" settles |
| Settlement.CapitalisedCompletedSettles | SDKs/pythonSdk/src/modexia/async_client.py:149-152 | "Completed" settles |
| Settlement.CompletedSettles | SDKs/pythonSdk/src/modexia/async_client.py:149-152 | "COMPLETED" settles |
| Settlement.LowerCaseFailedFails | SDKs/pythonSdk/src/modexia/async_client.py:149-154 | "failed" fails |
| Settlement.Judge | SDKs/pythonSdk/src/modexia/async_client.py:148-156 | a body that is not a dictionary, or a state that is not a string, escapes; a poll response resolves successfully only when its state reads COMPLETE or COMPLETED, and then to a COMPLETE receipt with the server's txHash and the polled txId; it keeps polling exactly when the state is a string that reads as neither settled nor failed |
| Settlement.OpenKeepsPolling | SDKs/pythonSdk/src/modexia/async_client.py:149-156 | a poll answered with an open state sleeps 2 s and continues the poll with one pass fewer |
| Settlement.Poll | SDKs/pythonSdk/src/modexia/async_client.py:144-158 | every receipt the poller returns reports success for the polled txId, and is COMPLETE or the timed-out PENDING receipt; an executor error on a pass ends the poll with that same error, without retrying inside the poller |
| Settlement.PollCallsBounded | SDKs/pythonSdk/src/modexia/async_client.py:147-156 | each pass makes at most four calls, so a poll makes at most four calls per pass of the clock check |
| Settlement.TimeoutWithoutCalls | SDKs/pythonSdk/src/modexia/async_client.py:146-158 | a closed window returns success=True, PENDING for the txId without any call (in the code this needs the clock to jump 30 s between `start` and the first check) |
| Settlement.SettledEndsPoll | SDKs/pythonSdk/src/modexia/async_client.py:151-152 | the first COMPLETE/COMPLETED answer, in any case, ends the poll with a COMPLETE receipt carrying the server's txHash |
| Settlement.FailedRaises | SDKs/pythonSdk/src/modexia/async_client.py:153-154 | a FAILED answer raises PaymentError("Transfer Failed: "+errorReason) instead of returning a receipt |
| Payments.LastUnderscore | SDKs/pythonSdk/src/modexia/async_client.py:126 | the position found holds an underscore with none after it; none found means no underscore at all |
| Payments.LastUnderscoreBefore | SDKs/pythonSdk/src/modexia/async_client.py:126 | in `p_h` with an underscore-free `h`, the last underscore is the joining one |
| Payments.IntentRoundTrip | SDKs/pythonSdk/src/modexia/async_client.py:126 | an intent splits back into its recipient, amount and hour when amount and hour have no underscore |
| Payments.IntentInjective | SDKs/pythonSdk/src/modexia/async_client.py:126-127 | distinct (recipient, amount, hour) triples give distinct intents, so one key is never shared by two intents through the joining |
| Payments.SuppliedKeyIsVerbatim | SDKs/pythonSdk/src/modexia/async_client.py:128-129 | a non-empty caller key is sent verbatim |
| Payments.IdempotencyKey | SDKs/pythonSdk/src/modexia/async_client.py:125-129 | a non-empty caller key is the key; otherwise the key is SHA-256 of the underscore-joined intent |
| Payments.SameIntentSameKey | SDKs/pythonSdk/tests/test_async.py:49-63 | without a caller key (absent or empty) the key is SHA-256 of recipient_amount_hour, identical for repeated calls in the same hour |
| Payments.Transfer | SDKs/pythonSdk/src/modexia/async_client.py:123-142 | a transfer's receipt is never FAILED, and a COMPLETE receipt always reports success; an executor error from the submission reaches the caller unchanged, and a non-dictionary answer escapes |
| Payments.ExecuteKeepsPrefix | SDKs/pythonSdk/src/modexia/async_client.py:86-88 | the executor appends to the record and its first call is the request |
| Payments.PollKeepsPrefix | SDKs/pythonSdk/src/modexia/async_client.py:147-156 | the poller only appends to the record of calls |
| Payments.TransferPostsKeyFirst | SDKs/pythonSdk/src/modexia/async_client.py:125-132 | the first request a transfer makes is the POST to /api/v1/agent/pay carrying recipient, amount text and the idempotency key |
| Payments.NoWaitNoPolling | SDKs/pythonSdk/src/modexia/async_client.py:134-142 | without `wait` every request is the payment itself and a returned receipt is PENDING |
| Payments.UnsuccessfulIsPending | SDKs/pythonSdk/src/modexia/async_client.py:134-142 | a submission the server does not report as successful yields a PENDING receipt whose success is the server's value (False when absent), with the server's txId and error, without polling |
| Payments.UnpolledReceiptCopiesServer | SDKs/pythonSdk/src/modexia/async_client.py:134-142 | whenever an object answer is not polled (no `wait` or no success), the transfer returns the PENDING receipt copying the server's success (False when absent), txId and error, after the submission's calls alone |
| Payments.PaidHandsOffToPoll | SDKs/pythonSdk/src/modexia/async_client.py:134-135 | with `wait`, an object answer reporting success hands the server's txId to the poller after the submission's calls, and the transfer is exactly the poll's outcome: settled, FAILED raising, or timed out |
| Payments.PaidThenSettled | SDKs/pythonSdk/tests/test_async.py:35-66 | a successful submission followed by a poll reading COMPLETE or COMPLETED, in any case, yields a successful COMPLETE receipt for the server's txId with its txHash |
| Paywall.QuoteFrom | SDKs/pythonSdk/src/modexia/async_client.py:214-215 | the position returned is the first quote at or after the start, or the end |
| Paywall.QuoteFromIs | SDKs/pythonSdk/src/modexia/async_client.py:214-215 | a quote-free stretch ending in a quote ends where QuoteFrom says |
| Paywall.MatchFromIsMatchAt | SDKs/pythonSdk/src/modexia/async_client.py:214-215 | the one-position matcher finds exactly the `key="value"` matches with a non-empty quote-free value |
| Paywall.MatchFrom | SDKs/pythonSdk/src/modexia/async_client.py:214-215 | a group found at one position is non-empty and free of quotes |
| Paywall.Search | SDKs/pythonSdk/src/modexia/async_client.py:214-215 | a group found by the scan is non-empty and free of quotes |
| Paywall.SearchSound | SDKs/pythonSdk/src/modexia/async_client.py:214-215 | a found value sits at a match with no match earlier |
| Paywall.SearchComplete | SDKs/pythonSdk/src/modexia/async_client.py:214-215 | when nothing is found, no position matches |
| Paywall.FindIsLeftmostMatch | SDKs/pythonSdk/src/modexia/async_client.py:214-215 | the scan returns the group of the leftmost match of `key="([^"]+)"`, and nothing exactly when no position matches |
| Paywall.Find | SDKs/pythonSdk/src/modexia/async_client.py:214-215 | a found group is non-empty and free of quotes, as `[^"]+` demands |
| Paywall.FindAttribute | SDKs/pythonSdk/src/modexia/async_client.py:214-215 | an attribute written at the start of the header is read back |
| Paywall.ParseChallenge | SDKs/pythonSdk/src/modexia/async_client.py:213-217 | a challenge is read exactly when both amount and destination are found, and its amount is the `amount="…"` group and its destination the `destination="…"` group |
| Paywall.ChallengeWellFormed | SDKs/pythonSdk/src/modexia/async_client.py:214-217 | the terms read are non-empty and free of quotes |
| Paywall.WithProof | SDKs/pythonSdk/src/modexia/async_client.py:198-199 | the headers gain exactly Authorization = "L402 "+txId and X-Payment-Proof = txId; every other header keeps its value |
| Paywall.Negotiate | SDKs/pythonSdk/src/modexia/async_client.py:211-220 | a challenge without both terms pays nothing, sends nothing and returns None; an amount `float` rejects raises with nothing sent; otherwise the result and record are exactly those of a waiting transfer of the amount to the destination with no caller key |
| Paywall.OtherStatusUnchanged | SDKs/pythonSdk/src/modexia/async_client.py:195-207 | a non-402 response is returned after one call with the caller's headers untouched |
| Paywall.IncompleteChallengeUnchanged | SDKs/pythonSdk/src/modexia/async_client.py:195-207 | a 402 without a full challenge is returned as is, after one call, without payment |
| Paywall.BrokenFetchIsNetworkError | SDKs/pythonSdk/src/modexia/async_client.py:208-209 | a transport failure of the GET is a NetworkError at once, without retry |
| Paywall.AfterPayment | SDKs/pythonSdk/src/modexia/async_client.py:196-207 | after a 402: a payment error propagates; no receipt or an unsuccessful one returns the original 402 with nothing more sent and the headers untouched; a successful receipt writes the proof headers for its txId and makes exactly one replay with them, whose answer is returned, or a NetworkError when it breaks |
| Paywall.Fetch | SDKs/pythonSdk/src/modexia/async_client.py:180-209 | the record of calls only grows, by at least the first GET; a broken first GET is a NetworkError; the caller's headers change only after a 402 answer |
| Paywall.PaidChallengeReplays | SDKs/pythonSdk/src/modexia/async_client.py:195-218 | a 402 whose challenge is payable and whose transfer succeeds pays once to the challenge's destination and amount, then replays the request once with the proof headers and returns that replay's answer |
| Paywall.FetchStartsWithOriginal | SDKs/pythonSdk/src/modexia/async_client.py:188-193 | the first request `smart_fetch` makes is the original GET with the caller's headers, and nothing recorded earlier changes |
| Paywall.HeadersOnlyGainProof | SDKs/pythonSdk/src/modexia/async_client.py:195-205 | the caller's headers stay as they were or gain only the two proof headers, and then the last call is the single replay carrying them |
| Paywall.NegotiateKeepsPrefix | SDKs/pythonSdk/src/modexia/async_client.py:211-220 | negotiation only appends to the record of calls |
| Paywall.PayableChallengePays | SDKs/pythonSdk/src/modexia/async_client.py:217-218 | a payable challenge's first request pays the challenge's amount to its destination under the key derived from that intent |
| History.Item | SDKs/pythonSdk/src/modexia/async_client.py:165-173 | a record becomes an item exactly when it is a dictionary; otherwise the error is the attribute error |
| History.Iterated | SDKs/pythonSdk/src/modexia/async_client.py:164 | iterating a list visits its items; an empty string or dictionary visits nothing; a non-empty string or dictionary raises the attribute error of `.get` on its first element; other scalars are not iterable |
| History.Items | SDKs/pythonSdk/src/modexia/async_client.py:163-173 | a successful reshaping yields one item per record |
| History.EmptyRecordDefaults | SDKs/pythonSdk/src/modexia/async_client.py:166-172 | an empty record gets "" for the text fields, "0" for the amount and None for the optional fields |
| History.StringAmountVerbatim | SDKs/pythonSdk/src/modexia/async_client.py:168 | a string amount is copied verbatim |
| History.ItemsPreserveOrder | SDKs/pythonSdk/src/modexia/async_client.py:163-173 | the items succeed exactly when every record is a dictionary, and then item k is record k reshaped, one per record |
| History.PageKeepsServerOrder | SDKs/pythonSdk/src/modexia/async_client.py:160-178 | a list of dictionaries yields one item per record in the server's order, with the server's hasMore (False when absent) |
| History.NonObjectRecordRaises | SDKs/pythonSdk/src/modexia/async_client.py:164-165 | one record that is not a dictionary fails the whole page |
| History.EmptyBodyEmptyPage | SDKs/pythonSdk/src/modexia/async_client.py:164-177 | an empty body is an empty page with hasMore False |
| History.Page | SDKs/pythonSdk/src/modexia/async_client.py:163-178 | a body that is not a dictionary fails; a page carries the server's hasMore (False when absent) and, for a list of transactions, one item per record |
| History.GetHistory | SDKs/pythonSdk/src/modexia/async_client.py:160-178 | the history makes the executor's calls only; an executor error propagates and otherwise the page is the body's reshaping |
| Identity.Validate | SDKs/pythonSdk/src/modexia/async_client.py:74-80 | the record is the identity request's, with at least one call; an executor error reaches the caller unchanged and leaves the cache; validation succeeds exactly when the response is a dictionary whose `data` (the response itself when absent) is a dictionary, and then returns that `data` and overwrites the cache with it; a failed one leaves the cache, except that an identity that is not a dictionary is cached before its `.get` raises |
| Identity.MalformedIdentityIsCached | SDKs/pythonSdk/src/modexia/async_client.py:76-79 | a `data` that is not a dictionary fails validation but stays in the cache; when that value is truthy a later balance read uses it and fails too (a falsy one makes the next read validate again) |
| Identity.RetrieveBalance | SDKs/pythonSdk/src/modexia/async_client.py:113-117 | a filled cache is used as is with nothing sent and answers its balance; an empty one is first filled by validation, whose error is returned unchanged and whose success yields the balance; a returned balance is the cached dictionary's "balance", "0" when absent |
| Identity.BalanceOf | SDKs/pythonSdk/src/modexia/async_client.py:117 | a balance is read exactly from a dictionary identity, as its "balance" entry with "0" when absent; anything else is the attribute error |
| Identity.FilledCacheMakesNoCall | SDKs/pythonSdk/src/modexia/async_client.py:115-117 | a filled cache answers the balance without any call and stays unchanged |
| Identity.EmptyCacheValidatesOnce | SDKs/pythonSdk/src/modexia/async_client.py:115-117 | an empty cache is filled by one validation, whose identity requests are the only calls made |
| Identity.BalanceAfterValidation | SDKs/pythonSdk/tests/test_async.py:23-31 | a fresh client whose identity endpoint answers {"data": d} reports d's balance after one request, and a second read makes no further request |
| AsyncClient.HeaderDict.constructor | SDKs/pythonSdk/src/modexia/async_client.py:182 | a header dictionary starts with the given entries |
| AsyncClient.Client.constructor | SDKs/pythonSdk/src/modexia/async_client.py:42-68 | a client resolves its base URL once, starts with nothing sent and an empty identity cache |
| AsyncClient.Client.Request | SDKs/pythonSdk/src/modexia/async_client.py:82-111 | the attempt loop returns, and leaves behind, exactly what the retry executor specifies |
| AsyncClient.Client.ValidateSession | SDKs/pythonSdk/src/modexia/async_client.py:74-80 | result, cache and record after validation are those Identity.Validate specifies |
| AsyncClient.Client.RetrieveBalance | SDKs/pythonSdk/src/modexia/async_client.py:113-117 | result, cache and record are those Identity.RetrieveBalance specifies; a filled cache is left as is and nothing is sent |
| AsyncClient.Client.GetBalance | SDKs/pythonSdk/src/modexia/async_client.py:119-121 | behaves exactly as RetrieveBalance |
| AsyncClient.Client.Transfer | SDKs/pythonSdk/src/modexia/async_client.py:123-142 | result and record are those Payments.Transfer specifies |
| AsyncClient.Client.PollStatus | SDKs/pythonSdk/src/modexia/async_client.py:144-158 | the polling loop returns, and leaves behind, exactly what Settlement.Poll specifies |
| AsyncClient.Client.GetHistory | SDKs/pythonSdk/src/modexia/async_client.py:160-178 | the append loop yields the page History.GetHistory specifies |
| AsyncClient.Client.NegotiatePaywall | SDKs/pythonSdk/src/modexia/async_client.py:211-220 | result and record are those Paywall.Negotiate specifies |
| AsyncClient.Client.SmartFetch | SDKs/pythonSdk/src/modexia/async_client.py:180-209 | the response, the record and the caller's header dictionary afterwards are those Paywall.Fetch specifies; a missing dictionary is replaced by a fresh empty one the caller never sees |
| AsyncClient.Client.ReplayWithProof | SDKs/pythonSdk/src/modexia/async_client.py:196-207 | the proof headers are written into the caller's dictionary in place and the replay made, exactly as Paywall.AfterPayment specifies |

## Left out

- `aclose`, the request timeout and the `httpx.AsyncClient` objects themselves are not modelled. The transport is a function from the number of calls made so far to an outcome.
- Asynchronous suspension is not modelled. `asyncio.sleep` becomes a recorded delay in the trace, and concurrent callers sharing one client are not modelled.
- The wall clock is not modelled. The hour stamp is an input. The 30-second poll window is a number of passes of its check (`Env.pollBudget`), so the model does not relate the budget to elapsed seconds. With a 2 s sleep the real window allows at most about 15 passes. Its first check comes about 0 s after `start`, so a budget of 0 (a window already closed at entry) stands for a clock jump of at least 30 s.
- `os.environ` is read at construction and is modelled as a parameter of the constructor.
- SHA-256 and `str(float(x))` are modelled as function parameters. Their concrete behaviour is not modelled.
- Logging (`logger.info`) is not modelled. The one exception is the `data.get('username')` that `validate_session` evaluates for its log line, because its failure on an identity that is not a dictionary is modelled.
- PyValues.Str: `str()` of a list or dictionary is not modelled. It renders as "", because its text depends on insertion order, which a map does not keep.
- PyValues.Upper: covers ASCII letters only. Python's `upper()` also maps non-ASCII letters.
- Header names are case-sensitive keys in the model. httpx compares header names without regard to case.
- Decoded JSON numbers are held as their Python `str()` text. Arithmetic on them is not modelled.
- The defaults `wait=True` of `transfer` and `limit=5` of `get_history` are not modelled: the model's operations take `wait` and `limit` as explicit arguments.
- Retry.Execute: states only the bounds on the number of calls. What the calls and the delays are is stated by Retry.ExecuteTrace.
- The synchronous `client.py`, from which the error classes come, is not part of this model. Its error classes are modelled by the `SdkError` variants.

=== FILE: client.dfy ===
/**
 * AsyncModexiaClient: the session object. Its transport, clock, hash and number
 * parsing are inputs; what it changes is the record of what it sent and waited for,
 * and its identity cache. Each method is proved against the specification function
 * of its component.
 */
module AsyncClient {
  import opened Options
  import opened PyValues
  import opened Errors
  import opened Wire
  import opened Models
  import Config
  import Retry
  import Settlement
  import Payments
  import Paywall
  import History
  import Identity

  /** A caller's headers dictionary, which `smart_fetch` updates in place. */
  class HeaderDict {
    var entries: map<string, string>

    constructor (entries: map<string, string>)
      ensures this.entries == entries
    {
      this.entries := entries;
    }
  }

  class Client {
    const apiKey: string
    const baseUrl: string
    /** The transport: its answer to the n-th call this client makes. */
    const network: nat -> Outcome
    /** Every request handed to the transport and every delay asked for, in order. */
    var trace: Trace
    /** The identity cache, `{}` until the first validation. */
    var identity: Json

    function AsSession(): Session {
      Session(apiKey, baseUrl, network)
    }

    /** `__init__`: resolves the base URL once; nothing has been sent and the cache is empty. */
    constructor (apiKey: string, baseUrl: Option<string>, envBaseUrl: Option<string>, network: nat -> Outcome)
      ensures this.apiKey == apiKey && this.network == network
      ensures this.baseUrl == Config.ResolveBaseUrl(baseUrl, envBaseUrl, apiKey)
      ensures trace == Trace([], []) && identity == EmptyObject
    {
      this.apiKey := apiKey;
      this.baseUrl := Config.ResolveBaseUrl(baseUrl, envBaseUrl, apiKey);
      this.network := network;
      trace := Trace([], []);
      identity := EmptyObject;
    }

    /** `_request`: up to four attempts, classified and backed off as the executor specifies. */
    method Request(verb: Verb, endpoint: string, payload: Option<map<string, string>>) returns (r: Result<Json>)
      modifies this`trace
      ensures Reply(r, trace) ==
        Retry.Execute(AsSession(), Config.ApiCall(AsSession(), verb, endpoint, payload), old(trace), 0)
    {
      var call := Config.ApiCall(AsSession(), verb, endpoint, payload);
      for attempt := 0 to Retry.MaxAttempts
        invariant attempt <= Retry.MaxRetries
        invariant Retry.Execute(AsSession(), call, old(trace), 0) == Retry.Execute(AsSession(), call, trace, attempt)
      {
        var outcome := network(|trace.sent|);
        var verdict := Retry.Classify(outcome, attempt, endpoint);
        trace := Send(trace, call);
        match verdict
        case Backoff(ms) =>
          trace := Sleep(trace, ms);
        case Settle(res) =>
          return res;
      }
      assert false;
    }

    /** `validate_session`: one request; a readable identity overwrites the cache. */
    method ValidateSession() returns (r: Result<Json>)
      modifies this`trace, this`identity
      ensures Identity.Cached(r, identity, trace) == Identity.Validate(AsSession(), old(identity), old(trace))
    {
      var res := Request(Get, Identity.MePath, None);
      if res.Err? {
        return Err(res.error);
      }
      r := Identity.IdentityOf(res.value);
      if r.Ok? {
        identity := r.value;
        if !r.value.JObj? {
          r := Err(Escaped(NotAnObject));
        }
      }
    }

    /** `retrieve_balance`: validates only when the cache is empty, then reads the cached balance. */
    method RetrieveBalance() returns (r: Result<Json>)
      modifies this`trace, this`identity
      ensures Identity.Cached(r, identity, trace) == Identity.RetrieveBalance(AsSession(), old(identity), old(trace))
      ensures old(Truthy(identity)) ==> trace == old(trace) && identity == old(identity)
    {
      if !Truthy(identity) {
        var validated := ValidateSession();
        if validated.Err? {
          return validated;
        }
      }
      r := Identity.BalanceOf(identity);
    }

    /** `get_balance`, an alias of `retrieve_balance`. */
    method GetBalance() returns (r: Result<Json>)
      modifies this`trace, this`identity
      ensures Identity.Cached(r, identity, trace) == Identity.RetrieveBalance(AsSession(), old(identity), old(trace))
    {
      r := RetrieveBalance();
    }

    /** `transfer`: derives the key, submits the payment, and polls only when asked to and the server reports success. */
    method Transfer(recipient: string, amount: string, idempotencyKey: Option<string>, wait: bool, env: Env)
      returns (r: Result<Receipt>)
      modifies this`trace
      ensures Reply(r, trace) == Payments.Transfer(AsSession(), env, recipient, amount, idempotencyKey, wait, old(trace))
    {
      var key := Payments.IdempotencyKey(idempotencyKey, recipient, amount, env.hour, env.sha256);
      var data := Request(Post, Payments.PayPath, Some(Payments.PayPayload(recipient, amount, key)));
      if data.Err? {
        return Err(data.error);
      }
      if !data.value.JObj? {
        return Err(Escaped(NotAnObject));
      }
      var fields := data.value.fields;
      if wait && Truthy(Lookup(fields, "success", JNull)) {
        r := PollStatus(Lookup(fields, "txId", JNull), env.pollBudget);
        return;
      }
      r := Ok(Payments.PendingReceipt(fields));
    }

    /** `_poll_status`: polls while the clock allows, two seconds apart, until a terminal state. */
    method PollStatus(txId: Json, budget: nat) returns (r: Result<Receipt>)
      modifies this`trace
      ensures Reply(r, trace) == Settlement.Poll(AsSession(), txId, old(trace), budget)
    {
      var remaining: nat := budget;
      while remaining > 0
        invariant remaining <= budget
        invariant Settlement.Poll(AsSession(), txId, old(trace), budget) == Settlement.Poll(AsSession(), txId, trace, remaining)
      {
        var data := Request(Get, Settlement.PollPath(txId), None);
        if data.Err? {
          return Err(data.error);
        }
        var verdict := Settlement.Judge(data.value, txId);
        if verdict.Resolved? {
          return verdict.result;
        }
        trace := Sleep(trace, Settlement.PollIntervalMs);
        remaining := remaining - 1;
      }
      r := Ok(Settlement.TimedOut(txId));
    }

    /** `get_history`: one request, then one history item appended per server record. */
    method GetHistory(limit: int) returns (r: Result<HistoryPage>)
      modifies this`trace
      ensures Reply(r, trace) == History.GetHistory(AsSession(), limit, old(trace))
    {
      var data := Request(Get, History.HistoryEndpoint(limit), None);
      if data.Err? {
        return Err(data.error);
      }
      if !data.value.JObj? {
        return Err(Escaped(NotAnObject));
      }
      var fields := data.value.fields;
      var records := History.Iterated(Lookup(fields, "transactions", JArr([])));
      if records.Err? {
        return Err(records.error);
      }
      var transactions: seq<HistoryItem> := [];
      for i := 0 to |records.value|
        invariant History.Items(records.value[..i]) == Ok(transactions)
      {
        var item := History.Item(records.value[i]);
        if item.Err? {
          History.ItemsPreserveOrder(records.value);
          return Err(item.error);
        }
        assert records.value[..i + 1][..i] == records.value[..i];
        transactions := transactions + [item.value];
      }
      assert records.value[..|records.value|] == records.value;
      r := Ok(HistoryPage(transactions, Lookup(fields, "hasMore", JBool(false))));
    }

    /** `_negotiate_paywall`: pays a challenge that names both an amount and a destination. */
    method NegotiatePaywall(response: HttpResponse, env: Env) returns (r: Result<Option<Receipt>>)
      modifies this`trace
      ensures Reply(r, trace) == Paywall.Negotiate(AsSession(), env, response, old(trace))
    {
      var header := response.authenticate.GetOr("");
      var amount := Paywall.Find("amount", header);
      var destination := Paywall.Find("destination", header);
      if amount.Some? && destination.Some? {
        var amountText := env.floatText(amount.value);
        if amountText.None? {
          return Err(Escaped(BadAmount));
        }
        var receipt := Transfer(destination.value, amountText.value, None, true, env);
        if receipt.Err? {
          return Err(receipt.error);
        }
        return Ok(Some(receipt.value));
      }
      r := Ok(None);
    }

    /**
     * `smart_fetch`: fetches `url`; on a 402, negotiates, and after a successful
     * payment adds the proof headers to the caller's dictionary and replays once.
     */
    method SmartFetch(url: string, params: map<string, string>, headers: HeaderDict?, env: Env)
      returns (r: Result<HttpResponse>)
      modifies this`trace, headers
      ensures var f := Paywall.Fetch(AsSession(), env, url, params,
                                     if headers == null then map[] else old(headers.entries), old(trace));
        r == f.result && trace == f.trace && (headers != null ==> headers.entries == f.headers)
    {
      var h := headers;
      if h == null {
        h := new HeaderDict(map[]);
      }
      var outcome := network(|trace.sent|);
      trace := Send(trace, Config.FetchCall(AsSession(), url, params, h.entries));
      if outcome.Broken? {
        return Err(NetworkError(ConnectionFailed(outcome.cause)));
      }
      if outcome.response.status != Retry.PaymentRequired {
        return Ok(outcome.response);
      }
      var receipt := NegotiatePaywall(outcome.response, env);
      r := ReplayWithProof(url, params, h, outcome.response, receipt);
    }

    /**
     * The end of `smart_fetch` after a 402 has been negotiated with result `receipt`:
     * on a successful payment, the proof headers go into `headers` in place and the
     * request is replayed once.
     */
    method ReplayWithProof(url: string, params: map<string, string>, headers: HeaderDict, response: HttpResponse,
                           receipt: Result<Option<Receipt>>) returns (r: Result<HttpResponse>)
      modifies this`trace, headers
      ensures var f := Paywall.AfterPayment(AsSession(), url, params, old(headers.entries), response,
                                            Reply(receipt, old(trace)));
        r == f.result && trace == f.trace && headers.entries == f.headers
    {
      if receipt.Err? {
        return Err(receipt.error);
      }
      if receipt.value.None? || !Truthy(receipt.value.value.success) {
        return Ok(response);
      }
      var txId := receipt.value.value.txId;
      headers.entries := headers.entries[Paywall.AuthorizationHeader := "L402 " + Str(txId)];
      headers.entries := headers.entries[Paywall.ProofHeader := Str(txId)];
      var again := network(|trace.sent|);
      trace := Send(trace, Config.FetchCall(AsSession(), url, params, headers.entries));
      if again.Broken? {
        return Err(NetworkError(ConnectionFailed(again.cause)));
      }
      r := Ok(again.response);
    }
  }
}

=== FILE: config.dfy ===
/** Session configuration: base-URL resolution, the session's default headers, absolute URLs. */
module Config {
  import opened Options
  import opened Wire

  const Version := "0.4.0"
  const LiveUrl := "https://api.modexia.software"
  const SandboxUrl := "https://sandbox.modexia.software"
  const LocalUrl := "http://localhost:3000"
  const LivePrefix := "mx_live_"
  const TestPrefix := "mx_test_"

  predicate StartsWith(s: string, prefix: string) {
    |prefix| <= |s| && s[..|prefix|] == prefix
  }

  /** Python truth testing of an optional string: `None` and "" are false. */
  predicate Given(o: Option<string>) {
    o.Some? && o.value != ""
  }

  /**
   * The base URL a client constructed with `explicit` as `base_url`, `env` as the
   * MODEXIA_BASE_URL environment value and `apiKey` uses: the first of the explicit
   * argument, the environment value and the URL the key's prefix selects.
   */
  function ResolveBaseUrl(explicit: Option<string>, env: Option<string>, apiKey: string): (url: string)
    ensures url != ""
    ensures Given(explicit) ==> url == explicit.value
    ensures !Given(explicit) && Given(env) ==> url == env.value
    ensures !Given(explicit) && !Given(env) ==>
      url == (if StartsWith(apiKey, LivePrefix) then LiveUrl
              else if StartsWith(apiKey, TestPrefix) then SandboxUrl
              else LocalUrl)
  {
    if Given(explicit) then explicit.value
    else if Given(env) then env.value
    else if StartsWith(apiKey, LivePrefix) then LiveUrl
    else if StartsWith(apiKey, TestPrefix) then SandboxUrl
    else LocalUrl
  }

  /** No key carries both the live and the test prefix, so the two prefix rules never compete. */
  lemma PrefixesExclusive(apiKey: string)
    ensures !(StartsWith(apiKey, LivePrefix) && StartsWith(apiKey, TestPrefix))
  {
  }

  /** A test key with no override resolves to the sandbox. */
  lemma TestKeyUsesSandbox(apiKey: string, explicit: Option<string>, env: Option<string>)
    requires StartsWith(apiKey, TestPrefix) && !Given(explicit) && !Given(env)
    ensures ResolveBaseUrl(explicit, env, apiKey) == SandboxUrl
  {
    PrefixesExclusive(apiKey);
  }

  /** The headers the session client sends with every request. */
  function SessionHeaders(apiKey: string): (h: map<string, string>)
    ensures h.Keys == {"x-modexia-key", "Content-Type", "User-Agent"} && h["x-modexia-key"] == apiKey
  {
    map["x-modexia-key" := apiKey, "Content-Type" := "application/json",
        "User-Agent" := "Modexia-Python-Async/" + Version]
  }

  /** A URL with an http:// or https:// scheme, which bypasses the session's base URL. */
  predicate IsAbsolute(url: string) {
    StartsWith(url, "http://") || StartsWith(url, "https://")
  }

  /** A request to the service's API through the session client. */
  function ApiCall(s: Session, verb: Verb, endpoint: string, payload: Option<map<string, string>>): Call {
    Call(verb, Some(s.baseUrl), endpoint, map[], SessionHeaders(s.apiKey), payload)
  }

  /**
   * The GET `smart_fetch` issues for `url`: an absolute URL goes out on a standalone
   * client with only the caller's headers; a relative one goes through the session
   * client, whose default headers the caller's override.
   */
  function FetchCall(s: Session, url: string, params: map<string, string>, headers: map<string, string>): (c: Call)
    ensures c.verb == Get && c.target == url && c.params == params && c.payload == None
    ensures IsAbsolute(url) ==> c.base == None && c.headers == headers
    ensures !IsAbsolute(url) ==> c.base == Some(s.baseUrl) && c.headers.Keys == SessionHeaders(s.apiKey).Keys + headers.Keys
    ensures forall k :: k in headers ==> k in c.headers && c.headers[k] == headers[k]
    ensures !IsAbsolute(url) ==> forall k :: k in SessionHeaders(s.apiKey) && k !in headers ==>
      c.headers[k] == SessionHeaders(s.apiKey)[k]
  {
    if IsAbsolute(url) then Call(Get, None, url, params, headers, None)
    else Call(Get, Some(s.baseUrl), url, params, SessionHeaders(s.apiKey) + headers, None)
  }
}

=== FILE: errors.dfy ===
/** The error taxonomy the client surfaces, and the result type of every operation. */
module Errors {
  import opened PyValues

  /** A Python exception that escapes the client without being translated. */
  datatype Escape =
    | BodyNotJson      // `response.json()` on a body that is not JSON
    | NotAnObject      // `.get` on something that is not a dictionary (AttributeError)
    | NotAString       // `.upper()` on something that is not a string (AttributeError)
    | NotIterable      // a `for` loop over `None`, a boolean or a number (TypeError)
    | BadAmount        // `float()` of a challenge amount that is not a number (ValueError)

  datatype SdkError =
    | AuthError(message: string)     // ModexiaAuthError
    | PaymentError(detail: Json)     // ModexiaPaymentError, whose argument need not be a string
    | NetworkError(message: string)  // ModexiaNetworkError
    | Escaped(kind: Escape)

  datatype Result<+T> = Ok(value: T) | Err(error: SdkError)

  /** The message every wrapped transport failure carries. */
  function ConnectionFailed(cause: string): string {
    "Connection failed: " + cause
  }
}

=== FILE: history.dfy ===
/** Transaction history: the server's records reshaped into history items, fields defaulted. */
module History {
  import opened Options
  import opened PyValues
  import opened Errors
  import opened Wire
  import opened Models
  import Config
  import Retry

  const HistoryPath := "/api/v1/user/transactions?limit="

  function HistoryEndpoint(limit: int): string {
    HistoryPath + IntText(limit)
  }

  /**
   * What `for t in v` visits: a list's items. An empty string or dictionary visits
   * nothing; a non-empty one visits strings, whose `.get` raises; anything else is
   * not iterable.
   */
  function Iterated(v: Json): (r: Result<seq<Json>>)
    ensures v.JArr? ==> r == Ok(v.items)
    ensures r.Ok? && !v.JArr? ==> r.value == [] && (v == JStr("") || v == EmptyObject)
    ensures v == JStr("") || v == EmptyObject ==> r == Ok([])
    ensures (v.JStr? || v.JObj?) && Truthy(v) ==> r == Err(Escaped(NotAnObject))
    ensures !(v.JArr? || v.JStr? || v.JObj?) ==> r == Err(Escaped(NotIterable))
  {
    match v
    case JArr(items) => Ok(items)
    case JStr(s) => if s == "" then Ok([]) else Err(Escaped(NotAnObject))
    case JObj(f) => if f == map[] then Ok([]) else Err(Escaped(NotAnObject))
    case _ => Err(Escaped(NotIterable))
  }

  /** One server record as a history item: missing text fields become "", a missing amount "0". */
  function Item(record: Json): (r: Result<HistoryItem>)
    ensures r.Ok? <==> record.JObj?
    ensures r.Err? ==> r.error == Escaped(NotAnObject)
  {
    match record
    case JObj(f) =>
      Ok(HistoryItem(
        Lookup(f, "txId", JStr("")), Lookup(f, "type", JStr("")), Str(Lookup(f, "amount", JStr("0"))),
        Lookup(f, "state", JStr("")), Lookup(f, "createdAt", JStr("")),
        Lookup(f, "providerAddress", JNull), Lookup(f, "txHash", JNull)))
    case _ => Err(Escaped(NotAnObject))
  }

  /** A record without fields gets every default. */
  lemma EmptyRecordDefaults()
    ensures Item(EmptyObject) == Ok(HistoryItem(JStr(""), JStr(""), "0", JStr(""), JStr(""), JNull, JNull))
  {
  }

  /** A decimal-string amount is copied verbatim. */
  lemma StringAmountVerbatim(f: map<string, Json>, amount: string)
    requires "amount" in f && f["amount"] == JStr(amount)
    ensures Item(JObj(f)).value.amount == amount
  {
  }

  /** The records, in order, each reshaped (the loop that appends one item per record). */
  function Items(records: seq<Json>): (r: Result<seq<HistoryItem>>)
    ensures r.Ok? ==> |r.value| == |records|
  {
    if records == [] then Ok([])
    else
      match Items(records[..|records| - 1])
      case Err(e) => Err(e)
      case Ok(items) =>
        match Item(records[|records| - 1])
        case Err(e) => Err(e)
        case Ok(item) => Ok(items + [item])
  }

  /**
   * The history keeps the server's order and count: item k is record k reshaped,
   * and the whole fails exactly when some record is not an object.
   */
  lemma {:induction false} ItemsPreserveOrder(records: seq<Json>)
    ensures Items(records).Ok? <==> forall k :: 0 <= k < |records| ==> records[k].JObj?
    ensures Items(records).Err? ==> Items(records).error == Escaped(NotAnObject)
    ensures Items(records).Ok? ==>
      |Items(records).value| == |records| &&
      forall k :: 0 <= k < |records| ==> Item(records[k]) == Ok(Items(records).value[k])
  {
    if records != [] {
      var front := records[..|records| - 1];
      ItemsPreserveOrder(front);
      assert forall k :: 0 <= k < |front| ==> front[k] == records[k];
    }
  }

  /** `get_history`'s reshaping of a response body. */
  function Page(data: Json): (r: Result<HistoryPage>)
    ensures !data.JObj? ==> r == Err(Escaped(NotAnObject))
    ensures r.Ok? ==> data.JObj? && r.value.hasMore == Lookup(data.fields, "hasMore", JBool(false))
    ensures r.Ok? && Lookup(data.fields, "transactions", JArr([])).JArr? ==>
      |r.value.transactions| == |Lookup(data.fields, "transactions", JArr([])).items|
  {
    match data
    case JObj(f) =>
      (match Iterated(Lookup(f, "transactions", JArr([])))
       case Err(e) => Err(e)
       case Ok(records) =>
         match Items(records)
         case Err(e) => Err(e)
         case Ok(items) => Ok(HistoryPage(items, Lookup(f, "hasMore", JBool(false)))))
    case _ => Err(Escaped(NotAnObject))
  }

  /** A body without the two fields is an empty page with no more to come. */
  lemma EmptyBodyEmptyPage()
    ensures Page(EmptyObject) == Ok(HistoryPage([], JBool(false)))
  {
  }

  /**
   * A body whose `transactions` list holds only objects yields one item per record,
   * in the server's order, and the server's `hasMore` (false when absent).
   */
  lemma PageKeepsServerOrder(f: map<string, Json>, records: seq<Json>)
    requires Lookup(f, "transactions", JArr([])) == JArr(records)
    requires forall k :: 0 <= k < |records| ==> records[k].JObj?
    ensures var p := Page(JObj(f));
      p.Ok? && |p.value.transactions| == |records| && p.value.hasMore == Lookup(f, "hasMore", JBool(false)) &&
      forall k :: 0 <= k < |records| ==> Item(records[k]) == Ok(p.value.transactions[k])
  {
    ItemsPreserveOrder(records);
  }

  /** A single record that is not an object makes the whole page fail: no partial history is returned. */
  lemma NonObjectRecordRaises(f: map<string, Json>, records: seq<Json>, k: nat)
    requires Lookup(f, "transactions", JArr([])) == JArr(records)
    requires k < |records| && !records[k].JObj?
    ensures Page(JObj(f)) == Err(Escaped(NotAnObject))
  {
    ItemsPreserveOrder(records);
  }

  function HistoryCall(s: Session, limit: int): Call {
    Config.ApiCall(s, Get, HistoryEndpoint(limit), None)
  }

  /** `get_history(limit)`: one API request through the executor, then the reshaping. */
  function GetHistory(s: Session, limit: int, t: Trace): (p: Reply<HistoryPage>)
    ensures var fetched := Retry.Execute(s, HistoryCall(s, limit), t, 0);
      p.trace == fetched.trace && (fetched.result.Err? ==> p.result == Err(fetched.result.error)) &&
      (fetched.result.Ok? ==> p.result == Page(fetched.result.value))
  {
    var fetched := Retry.Execute(s, HistoryCall(s, limit), t, 0);
    match fetched.result
    case Err(e) => Reply(Err(e), fetched.trace)
    case Ok(data) => Reply(Page(data), fetched.trace)
  }
}

=== FILE: identity.dfy ===
/** The session's identity cache: filled by validation, read lazily for the balance. */
module Identity {
  import opened Options
  import opened PyValues
  import opened Errors
  import opened Wire
  import Config
  import Retry

  const MePath := "/api/v1/user/me"

  /** `res.get('data', res)`: the identity inside a validation response. */
  function IdentityOf(res: Json): Result<Json> {
    match res
    case JObj(f) => Ok(Lookup(f, "data", res))
    case _ => Err(Escaped(NotAnObject))
  }

  /** `identity.get("balance", "0")`. */
  function BalanceOf(identity: Json): (r: Result<Json>)
    ensures r.Ok? <==> identity.JObj?
    ensures r.Ok? ==> r.value == Lookup(identity.fields, "balance", JStr("0"))
    ensures r.Err? ==> r.error == Escaped(NotAnObject)
  {
    match identity
    case JObj(f) => Ok(Lookup(f, "balance", JStr("0")))
    case _ => Err(Escaped(NotAnObject))
  }

  /** An operation's result, the identity cache after it, and the trace after it. */
  datatype Cached = Cached(result: Result<Json>, identity: Json, trace: Trace)

  function MeCall(s: Session): Call {
    Config.ApiCall(s, Get, MePath, None)
  }

  /**
   * `validate_session`: always a round trip. The identity read from the response is
   * stored before it is logged, so an identity that is not a dictionary still
   * overwrites the cache, and then its `.get` raises. Any other failure leaves the
   * cache as it was.
   */
  function Validate(s: Session, identity: Json, t: Trace): (c: Cached)
    ensures c.trace == Retry.Execute(s, MeCall(s), t, 0).trace && |c.trace.sent| > |t.sent|
    ensures c.result.Ok? ==>
      var res := Retry.Execute(s, MeCall(s), t, 0).result;
      res.Ok? && res.value.JObj? && c.result.value == Lookup(res.value.fields, "data", res.value)
    ensures var res := Retry.Execute(s, MeCall(s), t, 0).result;
      c.result.Ok? <==> res.Ok? && res.value.JObj? && Lookup(res.value.fields, "data", res.value).JObj?
    ensures var fetched := Retry.Execute(s, MeCall(s), t, 0);
      fetched.result.Err? ==> c == Cached(Err(fetched.result.error), identity, fetched.trace)
    ensures c.result.Ok? ==> c.identity == c.result.value && c.identity.JObj?
    ensures c.result.Err? && c.identity != identity ==> c.result.error == Escaped(NotAnObject) && !c.identity.JObj?
  {
    var fetched := Retry.Execute(s, MeCall(s), t, 0);
    match fetched.result
    case Err(e) => Cached(Err(e), identity, fetched.trace)
    case Ok(res) =>
      match IdentityOf(res)
      case Err(e) => Cached(Err(e), identity, fetched.trace)
      case Ok(data) =>
        if data.JObj? then Cached(Ok(data), data, fetched.trace)
        else Cached(Err(Escaped(NotAnObject)), data, fetched.trace)
  }

  /**
   * A response whose `data` is present but not a dictionary fails validation, yet
   * leaves that value in the cache, where later balance reads find it.
   */
  lemma MalformedIdentityIsCached(s: Session, identity: Json, t: Trace, f: map<string, Json>)
    requires Retry.Execute(s, MeCall(s), t, 0).result == Ok(JObj(f))
    requires "data" in f && !f["data"].JObj?
    ensures var c := Validate(s, identity, t);
      c.result == Err(Escaped(NotAnObject)) && c.identity == f["data"]
    ensures Truthy(f["data"]) ==>
      RetrieveBalance(s, Validate(s, identity, t).identity, Validate(s, identity, t).trace).result == Err(Escaped(NotAnObject))
  {
  }

  /** `retrieve_balance`: validates first only when the cache is empty (falsy), then reads the balance. */
  function RetrieveBalance(s: Session, identity: Json, t: Trace): (c: Cached)
    ensures Truthy(identity) ==> c.trace == t && c.identity == identity
    ensures !Truthy(identity) ==> c.trace == Validate(s, identity, t).trace && c.identity == Validate(s, identity, t).identity
    ensures c.result.Ok? ==> c.identity.JObj? && c.result.value == Lookup(c.identity.fields, "balance", JStr("0"))
    ensures Truthy(identity) ==> c.result == BalanceOf(identity)
    ensures !Truthy(identity) && Validate(s, identity, t).result.Ok? ==> c.result.Ok?
    ensures !Truthy(identity) && Validate(s, identity, t).result.Err? ==> c.result == Validate(s, identity, t).result
  {
    if Truthy(identity) then Cached(BalanceOf(identity), identity, t)
    else
      var v := Validate(s, identity, t);
      if v.result.Err? then v else Cached(BalanceOf(v.identity), v.identity, v.trace)
  }

  /** A filled cache answers without any request and stays as it is. */
  lemma FilledCacheMakesNoCall(s: Session, identity: Json, t: Trace)
    requires Truthy(identity)
    ensures RetrieveBalance(s, identity, t) == Cached(BalanceOf(identity), identity, t)
  {
  }

  /** An empty cache is filled by exactly one validation, whose calls are the only ones made. */
  lemma EmptyCacheValidatesOnce(s: Session, identity: Json, t: Trace)
    requires !Truthy(identity)
    ensures var c := RetrieveBalance(s, identity, t);
      c.trace == Validate(s, identity, t).trace && c.identity == Validate(s, identity, t).identity &&
      forall k :: |t.sent| <= k < |c.trace.sent| ==> c.trace.sent[k] == MeCall(s)
  {
    var v := Validate(s, identity, t);
    Retry.ExecuteTrace(s, MeCall(s), t, 0);
    var calls := Retry.Repeat(MeCall(s), |v.trace.sent| - |t.sent|);
    assert v.trace.sent == t.sent + calls;
    assert forall k :: |t.sent| <= k < |v.trace.sent| ==> v.trace.sent[k] == calls[k - |t.sent|];
  }

  /**
   * A fresh session whose identity endpoint answers `{"data": d}` reports d's
   * balance after one request, and a second read answers from the cache with no
   * further request.
   */
  lemma BalanceAfterValidation(s: Session, t: Trace, resp: HttpResponse, d: map<string, Json>)
    requires s.net(|t.sent|) == Answer(resp)
    requires resp.status == 200 && resp.text != "" && resp.json == Some(JObj(map["data" := JObj(d)]))
    requires "balance" in d
    ensures var first := RetrieveBalance(s, EmptyObject, t);
      first == Cached(Ok(d["balance"]), JObj(d), Send(t, MeCall(s))) &&
      RetrieveBalance(s, first.identity, first.trace) == first
  {
    assert d != map[];
    assert Retry.Classify(s.net(|t.sent|), 0, MePath) == Retry.Settle(Retry.Body(resp));
  }
}

=== FILE: models.dfy ===
/** The records the client returns (the `models` dataclasses). */
module Models {
  import opened PyValues

  /** The status strings a receipt can carry. The client itself only writes PENDING and COMPLETE. */
  datatype Status = Pending | Complete | Failed

  /**
   * PaymentReceipt. Every field except `status` is whatever the server sent (or
   * `None`, i.e. JNull): the dataclass does not check its field types.
   */
  datatype Receipt = Receipt(success: Json, status: Status, txId: Json, txHash: Json, errorReason: Json)

  /** TransactionHistoryItem: `amount` is the `str()` of the server's value, the rest is copied. */
  datatype HistoryItem = HistoryItem(
    txId: Json, kind: Json, amount: string, state: Json, createdAt: Json,
    providerAddress: Json, txHash: Json)

  /** TransactionHistoryResponse. */
  datatype HistoryPage = HistoryPage(transactions: seq<HistoryItem>, hasMore: Json)
}

=== FILE: options.dfy ===
/** The optional value used wherever the client accepts or returns Python's `None`. */
module Options {

  datatype Option<+T> = None | Some(value: T) {

    /** The value, or `default` when there is none. */
    function GetOr(default: T): T {
      match this
      case Some(v) => v
      case None => default
    }
  }
}

=== FILE: payments.dfy ===
/** Transfers: idempotency-key derivation, submission, and hand-off to the settlement poller. */
module Payments {
  import opened Options
  import opened PyValues
  import opened Errors
  import opened Wire
  import opened Models
  import Config
  import Retry
  import Settlement

  const PayPath := "/api/v1/agent/pay"

  /** The payment intent a derived key is the hash of: recipient, amount text and hour, joined by underscores. */
  function Intent(recipient: string, amount: string, hour: string): string {
    recipient + "_" + amount + "_" + hour
  }

  /** The last underscore in `s`, if any. */
  function LastUnderscore(s: string): (i: Option<nat>)
    ensures i.Some? ==> i.value < |s| && s[i.value] == '_' && '_' !in s[i.value + 1..]
    ensures i.None? ==> '_' !in s
  {
    if s == [] then None
    else if s[|s| - 1] == '_' then Some(|s| - 1)
    else
      var r := LastUnderscore(s[..|s| - 1]);
      assert s == s[..|s| - 1] + [s[|s| - 1]];
      r
  }

  /**
   * Splits an intent back into recipient, amount and hour at its last two
   * underscores (a recipient may itself contain underscores).
   */
  function ParseIntent(intent: string): Option<(string, string, string)> {
    match LastUnderscore(intent)
    case None => None
    case Some(j) =>
      match LastUnderscore(intent[..j])
      case None => None
      case Some(k) => Some((intent[..k], intent[k + 1..j], intent[j + 1..]))
  }

  /** The last underscore of `p + "_" + h`, when `h` has none, is the one between them. */
  lemma LastUnderscoreBefore(p: string, h: string)
    requires '_' !in h
    ensures LastUnderscore(p + "_" + h) == Some(|p|)
  {
    var s := p + "_" + h;
    assert s[|p|] == '_';
    assert s[|p| + 1..] == h;
  }

  /**
   * The intent determines its parts: an amount text and an hour stamp without
   * underscores (as `str()` of a float and `%Y-%m-%d-%H` always are) are read back
   * exactly, so distinct (recipient, amount, hour) triples give distinct intents.
   */
  lemma IntentRoundTrip(recipient: string, amount: string, hour: string)
    requires '_' !in amount && '_' !in hour
    ensures ParseIntent(Intent(recipient, amount, hour)) == Some((recipient, amount, hour))
  {
    var front := recipient + "_" + amount;
    var intent := Intent(recipient, amount, hour);
    LastUnderscoreBefore(front, hour);
    assert intent[..|front|] == front;
    LastUnderscoreBefore(recipient, amount);
    assert intent[..|recipient|] == recipient;
    assert intent[|recipient| + 1..|front|] == amount;
    assert intent[|front| + 1..] == hour;
  }

  /** Equal intents come from equal triples. */
  lemma IntentInjective(r1: string, a1: string, h1: string, r2: string, a2: string, h2: string)
    requires '_' !in a1 && '_' !in h1 && '_' !in a2 && '_' !in h2
    requires Intent(r1, a1, h1) == Intent(r2, a2, h2)
    ensures r1 == r2 && a1 == a2 && h1 == h2
  {
    IntentRoundTrip(r1, a1, h1);
    IntentRoundTrip(r2, a2, h2);
  }

  /** The idempotency key: the caller's when non-empty, otherwise the SHA-256 of the intent. */
  function IdempotencyKey(supplied: Option<string>, recipient: string, amount: string, hour: string,
                          sha256: string -> string): (k: string)
    ensures Config.Given(supplied) ==> k == supplied.value
    ensures !Config.Given(supplied) ==> k == sha256(Intent(recipient, amount, hour))
  {
    if Config.Given(supplied) then supplied.value else sha256(Intent(recipient, amount, hour))
  }

  /** A caller-supplied non-empty key is sent verbatim, whatever the recipient, amount and hour. */
  lemma SuppliedKeyIsVerbatim(key: string, recipient: string, amount: string, hour: string, sha256: string -> string)
    requires key != ""
    ensures IdempotencyKey(Some(key), recipient, amount, hour, sha256) == key
  {
  }

  /**
   * Without a caller key, two transfers of the same amount to the same recipient in
   * the same hour derive the same key; with an absent or an empty key alike.
   */
  lemma SameIntentSameKey(k1: Option<string>, k2: Option<string>, recipient: string, amount: string, hour: string,
                          sha256: string -> string)
    requires !Config.Given(k1) && !Config.Given(k2)
    ensures IdempotencyKey(k1, recipient, amount, hour, sha256) == IdempotencyKey(k2, recipient, amount, hour, sha256)
    ensures IdempotencyKey(k1, recipient, amount, hour, sha256) == sha256(recipient + "_" + amount + "_" + hour)
  {
  }

  /** The JSON body of the payment request. */
  function PayPayload(recipient: string, amount: string, key: string): map<string, string> {
    map["providerAddress" := recipient, "amount" := amount, "idempotencyKey" := key]
  }

  function PayCall(s: Session, recipient: string, amount: string, key: string): Call {
    Config.ApiCall(s, Post, PayPath, Some(PayPayload(recipient, amount, key)))
  }

  /** The receipt returned without polling: PENDING, with the server's success flag (false when absent), txId and error. */
  function PendingReceipt(f: map<string, Json>): Receipt {
    Receipt(Lookup(f, "success", JBool(false)), Pending, Lookup(f, "txId", JNull), JNull, Lookup(f, "error", JNull))
  }

  /**
   * `transfer`: submits the payment under its idempotency key, then polls for
   * settlement only when `wait` is set and the server reports success. A receipt
   * is never FAILED, and a COMPLETE one always reports success.
   */
  function Transfer(s: Session, env: Env, recipient: string, amount: string, supplied: Option<string>,
                    wait: bool, t: Trace): (r: Reply<Receipt>)
    ensures r.result.Ok? ==> r.result.value.status != Failed
    ensures r.result.Ok? && r.result.value.status == Complete ==> r.result.value.success == JBool(true)
    ensures var paid := Retry.Execute(s, PayCall(s, recipient, amount, IdempotencyKey(supplied, recipient, amount, env.hour, env.sha256)), t, 0);
      (paid.result.Err? ==> r == Reply(Err(paid.result.error), paid.trace)) &&
      (paid.result.Ok? && !paid.result.value.JObj? ==> r == Reply(Err(Escaped(NotAnObject)), paid.trace))
  {
    var key := IdempotencyKey(supplied, recipient, amount, env.hour, env.sha256);
    var paid := Retry.Execute(s, PayCall(s, recipient, amount, key), t, 0);
    match paid.result
    case Err(e) => Reply(Err(e), paid.trace)
    case Ok(data) =>
      if !data.JObj? then Reply(Err(Escaped(NotAnObject)), paid.trace)
      else if wait && Truthy(Lookup(data.fields, "success", JNull)) then
        Settlement.Poll(s, Lookup(data.fields, "txId", JNull), paid.trace, env.pollBudget)
      else Reply(Ok(PendingReceipt(data.fields)), paid.trace)
  }

  /** The executor never rewrites what was recorded before it. */
  lemma ExecuteKeepsPrefix(s: Session, call: Call, t: Trace)
    ensures var r := Retry.Execute(s, call, t, 0);
      |t.sent| < |r.trace.sent| && r.trace.sent[..|t.sent|] == t.sent && r.trace.sent[|t.sent|] == call
  {
    Retry.ExecuteTrace(s, call, t, 0);
  }

  /** The poller never rewrites what was recorded before it. */
  lemma {:induction false} PollKeepsPrefix(s: Session, txId: Json, t: Trace, budget: nat)
    ensures var r := Settlement.Poll(s, txId, t, budget);
      |t.sent| <= |r.trace.sent| && r.trace.sent[..|t.sent|] == t.sent
    decreases budget
  {
    if budget > 0 {
      var call := Config.ApiCall(s, Get, Settlement.PollPath(txId), None);
      var polled := Retry.Execute(s, call, t, 0);
      ExecuteKeepsPrefix(s, call, t);
      if polled.result.Ok? && Settlement.Judge(polled.result.value, txId).KeepPolling? {
        var t1 := Sleep(polled.trace, Settlement.PollIntervalMs);
        PollKeepsPrefix(s, txId, t1, budget - 1);
        var r := Settlement.Poll(s, txId, t1, budget - 1);
        assert Settlement.Poll(s, txId, t, budget) == r;
        assert t1.sent == polled.trace.sent;
        assert r.trace.sent[..|t.sent|] == r.trace.sent[..|t1.sent|][..|t.sent|];
      }
    }
  }

  /** The first request a transfer makes is the payment, carrying its idempotency key. */
  lemma TransferPostsKeyFirst(s: Session, env: Env, recipient: string, amount: string, supplied: Option<string>,
                              wait: bool, t: Trace)
    ensures var r := Transfer(s, env, recipient, amount, supplied, wait, t);
      |t.sent| < |r.trace.sent| && r.trace.sent[..|t.sent|] == t.sent &&
      r.trace.sent[|t.sent|] == PayCall(s, recipient, amount, IdempotencyKey(supplied, recipient, amount, env.hour, env.sha256))
  {
    var call := PayCall(s, recipient, amount, IdempotencyKey(supplied, recipient, amount, env.hour, env.sha256));
    var paid := Retry.Execute(s, call, t, 0);
    ExecuteKeepsPrefix(s, call, t);
    if paid.result.Ok? && paid.result.value.JObj? {
      var txId := Lookup(paid.result.value.fields, "txId", JNull);
      PollKeepsPrefix(s, txId, paid.trace, env.pollBudget);
      var r := Settlement.Poll(s, txId, paid.trace, env.pollBudget);
      assert r.trace.sent[..|t.sent|] == r.trace.sent[..|paid.trace.sent|][..|t.sent|];
      assert r.trace.sent[|t.sent|] == r.trace.sent[..|paid.trace.sent|][|t.sent|];
    }
  }

  /**
   * Without `wait` a transfer never polls: every request it makes is the payment
   * itself (resent only by the executor's retries), and a receipt it returns is PENDING.
   */
  lemma NoWaitNoPolling(s: Session, env: Env, recipient: string, amount: string, supplied: Option<string>, t: Trace)
    ensures var r := Transfer(s, env, recipient, amount, supplied, false, t);
      var call := PayCall(s, recipient, amount, IdempotencyKey(supplied, recipient, amount, env.hour, env.sha256));
      (forall k :: |t.sent| <= k < |r.trace.sent| ==> r.trace.sent[k] == call) &&
      (r.result.Ok? ==> r.result.value.status == Pending)
  {
    var call := PayCall(s, recipient, amount, IdempotencyKey(supplied, recipient, amount, env.hour, env.sha256));
    var paid := Retry.Execute(s, call, t, 0);
    Retry.ExecuteTrace(s, call, t, 0);
    var calls := Retry.Repeat(call, |paid.trace.sent| - |t.sent|);
    assert paid.trace.sent == t.sent + calls;
    assert forall k :: |t.sent| <= k < |paid.trace.sent| ==> paid.trace.sent[k] == calls[k - |t.sent|];
  }

  /**
   * A payment the server does not report as successful comes back as a PENDING
   * receipt carrying the server's txId and error, without polling.
   */
  lemma UnsuccessfulIsPending(s: Session, env: Env, recipient: string, amount: string, supplied: Option<string>,
                              wait: bool, t: Trace, f: map<string, Json>)
    requires var key := IdempotencyKey(supplied, recipient, amount, env.hour, env.sha256);
      Retry.Execute(s, PayCall(s, recipient, amount, key), t, 0).result == Ok(JObj(f))
    requires !Truthy(Lookup(f, "success", JNull))
    ensures var rc := Transfer(s, env, recipient, amount, supplied, wait, t).result;
      rc.Ok? && rc.value.status == Pending && !Truthy(rc.value.success) &&
      rc.value.success == Lookup(f, "success", JBool(false)) &&
      rc.value.txId == Lookup(f, "txId", JNull) && rc.value.errorReason == Lookup(f, "error", JNull)
  {
  }

  /**
   * With `wait`, a submission the server reports as successful hands the server's
   * txId to the settlement poller, and the transfer is whatever the poll yields:
   * settled, failed or timed out.
   */
  lemma PaidHandsOffToPoll(s: Session, env: Env, recipient: string, amount: string, supplied: Option<string>,
                           t: Trace, f: map<string, Json>)
    requires var key := IdempotencyKey(supplied, recipient, amount, env.hour, env.sha256);
      Retry.Execute(s, PayCall(s, recipient, amount, key), t, 0).result == Ok(JObj(f))
    requires Truthy(Lookup(f, "success", JNull))
    ensures var key := IdempotencyKey(supplied, recipient, amount, env.hour, env.sha256);
      Transfer(s, env, recipient, amount, supplied, true, t) ==
        Settlement.Poll(s, Lookup(f, "txId", JNull), Retry.Execute(s, PayCall(s, recipient, amount, key), t, 0).trace, env.pollBudget)
  {
  }

  /**
   * Whenever a submission answered with an object is not polled (no `wait`, or no
   * success reported), the receipt is PENDING and copies the server's success flag
   * (False when absent), txId and error, after the submission's calls alone.
   */
  lemma UnpolledReceiptCopiesServer(s: Session, env: Env, recipient: string, amount: string, supplied: Option<string>,
                                    wait: bool, t: Trace, f: map<string, Json>)
    requires var key := IdempotencyKey(supplied, recipient, amount, env.hour, env.sha256);
      Retry.Execute(s, PayCall(s, recipient, amount, key), t, 0).result == Ok(JObj(f))
    requires !(wait && Truthy(Lookup(f, "success", JNull)))
    ensures var key := IdempotencyKey(supplied, recipient, amount, env.hour, env.sha256);
      Transfer(s, env, recipient, amount, supplied, wait, t) ==
        Reply(Ok(Receipt(Lookup(f, "success", JBool(false)), Pending, Lookup(f, "txId", JNull), JNull, Lookup(f, "error", JNull))),
              Retry.Execute(s, PayCall(s, recipient, amount, key), t, 0).trace)
  {
  }

  /**
   * A successful payment followed by a poll that reads a settled state (COMPLETE or
   * COMPLETED, in any case) yields a successful COMPLETE receipt for the server's
   * transaction, with the settlement hash.
   */
  lemma PaidThenSettled(s: Session, env: Env, recipient: string, amount: string, supplied: Option<string>,
                        t: Trace, f: map<string, Json>, g: map<string, Json>, state: string)
    requires env.pollBudget > 0
    requires var key := IdempotencyKey(supplied, recipient, amount, env.hour, env.sha256);
      Retry.Execute(s, PayCall(s, recipient, amount, key), t, 0).result == Ok(JObj(f))
    requires Truthy(Lookup(f, "success", JNull))
    requires var key := IdempotencyKey(supplied, recipient, amount, env.hour, env.sha256);
      var paid := Retry.Execute(s, PayCall(s, recipient, amount, key), t, 0);
      var txId := Lookup(f, "txId", JNull);
      Retry.Execute(s, Config.ApiCall(s, Get, Settlement.PollPath(txId), None), paid.trace, 0).result == Ok(JObj(g))
    requires "state" in g && g["state"] == JStr(state) && Settlement.ReadState(state) == Settlement.Settled
    ensures Transfer(s, env, recipient, amount, supplied, true, t).result ==
      Ok(Receipt(JBool(true), Complete, Lookup(f, "txId", JNull), Lookup(g, "txHash", JNull), JNull))
  {
    var key := IdempotencyKey(supplied, recipient, amount, env.hour, env.sha256);
    var paid := Retry.Execute(s, PayCall(s, recipient, amount, key), t, 0);
    var txId := Lookup(f, "txId", JNull);
    assert Transfer(s, env, recipient, amount, supplied, true, t) == Settlement.Poll(s, txId, paid.trace, env.pollBudget);
    Settlement.SettledEndsPoll(s, txId, paid.trace, env.pollBudget, g, state);
  }
}

=== FILE: paywall.dfy ===
/**
 * The paywall negotiator behind `smart_fetch`: on a 402 it reads the payment terms
 * from the WWW-Authenticate challenge, pays them with a transfer, and replays the
 * original request once with proof of payment.
 */
module Paywall {
  import opened Options
  import opened PyValues
  import opened Errors
  import opened Wire
  import opened Models
  import Config
  import Retry
  import Payments

  const Quote: char := '"'

  /** `s` holds `key="value"` at position `i`, with `value` non-empty and free of quotes. */
  predicate MatchAt(s: string, key: string, i: nat, value: string) {
    var open := key + "=\"";
    i + |open| + |value| < |s| && s[i..i + |open|] == open &&
    value != [] && Quote !in value &&
    s[i + |open|..i + |open| + |value|] == value && s[i + |open| + |value|] == Quote
  }

  /** The position of the first quote at or after `j`, or |s| when there is none. */
  function QuoteFrom(s: string, j: nat): (e: nat)
    requires j <= |s|
    ensures j <= e <= |s| && (e < |s| ==> s[e] == Quote) && Quote !in s[j..e]
    decreases |s| - j
  {
    if j == |s| || s[j] == Quote then j
    else
      var e := QuoteFrom(s, j + 1);
      assert s[j..e] == [s[j]] + s[j + 1..e];
      e
  }

  /** A quote-free stretch followed by a quote ends where QuoteFrom says. */
  lemma QuoteFromIs(s: string, j: nat, e: nat)
    requires j <= e < |s| && s[e] == Quote && Quote !in s[j..e]
    ensures QuoteFrom(s, j) == e
  {
    var e' := QuoteFrom(s, j);
    assert forall k :: j <= k < e ==> s[k] == s[j..e][k - j];
    assert forall k :: j <= k < e' ==> s[k] == s[j..e'][k - j];
  }

  /** The regular expression `key="([^"]+)"` tried at position `i` alone: its group, when it matches there. */
  function MatchFrom(s: string, key: string, i: nat): (r: Option<string>)
    ensures r.Some? ==> r.value != [] && Quote !in r.value
  {
    var open := key + "=\"";
    if i + |open| <= |s| && s[i..i + |open|] == open then
      var e := QuoteFrom(s, i + |open|);
      if i + |open| < e < |s| then Some(s[i + |open|..e]) else None
    else None
  }

  /** MatchFrom finds exactly the matches MatchAt describes. */
  lemma MatchFromIsMatchAt(s: string, key: string, i: nat, value: string)
    ensures MatchFrom(s, key, i) == Some(value) <==> MatchAt(s, key, i, value)
  {
    var open := key + "=\"";
    if MatchAt(s, key, i, value) {
      QuoteFromIs(s, i + |open|, i + |open| + |value|);
    }
  }

  /** The leftmost match at or after position `i`. */
  function Search(key: string, s: string, i: nat): (r: Option<string>)
    ensures r.Some? ==> r.value != [] && Quote !in r.value
    decreases |s| - i
  {
    if i >= |s| then None
    else match MatchFrom(s, key, i)
      case Some(v) => Some(v)
      case None => Search(key, s, i + 1)
  }

  /** `re.search(r'key="([^"]+)"', s)`: the group of the leftmost match, or None. */
  function Find(key: string, s: string): (r: Option<string>)
    ensures r.Some? ==> r.value != [] && Quote !in r.value
  {
    Search(key, s, 0)
  }

  /** A found value sits at a match position with no match before it. */
  lemma {:induction false} SearchSound(key: string, s: string, i: nat, value: string)
    requires Search(key, s, i) == Some(value)
    ensures exists p :: i <= p && MatchAt(s, key, p, value) && forall q, w :: i <= q < p ==> !MatchAt(s, key, q, w)
    decreases |s| - i
  {
    match MatchFrom(s, key, i)
    case Some(v) =>
      MatchFromIsMatchAt(s, key, i, value);
    case None =>
      SearchSound(key, s, i + 1, value);
      var p :| i + 1 <= p && MatchAt(s, key, p, value) && forall q, w :: i + 1 <= q < p ==> !MatchAt(s, key, q, w);
      forall w ensures !MatchAt(s, key, i, w) {
        MatchFromIsMatchAt(s, key, i, w);
      }
  }

  /** When nothing is found, no position matches. */
  lemma {:induction false} SearchComplete(key: string, s: string, i: nat)
    requires Search(key, s, i) == None
    ensures forall q, w :: i <= q && MatchAt(s, key, q, w) ==> false
    decreases |s| - i
  {
    if i < |s| {
      SearchComplete(key, s, i + 1);
      forall w ensures !MatchAt(s, key, i, w) {
        MatchFromIsMatchAt(s, key, i, w);
      }
    }
  }

  /**
   * Find is the leftmost-match semantics of the regular expression: it yields
   * `value` exactly when some position matches with `value` and none before it does,
   * and it yields nothing exactly when no position matches.
   */
  lemma FindIsLeftmostMatch(key: string, s: string)
    ensures forall v :: Find(key, s) == Some(v) ==>
      exists p :: MatchAt(s, key, p, v) && forall q, w :: q < p ==> !MatchAt(s, key, q, w)
    ensures Find(key, s) == None <==> forall q, w :: !MatchAt(s, key, q, w)
  {
    if Find(key, s).Some? {
      SearchSound(key, s, 0, Find(key, s).value);
      var p :| MatchAt(s, key, p, Find(key, s).value);
    } else {
      SearchComplete(key, s, 0);
    }
  }

  /** An attribute written out first is read back. */
  lemma FindAttribute(key: string, value: string, rest: string)
    requires value != [] && Quote !in value
    ensures Find(key, key + "=\"" + value + "\"" + rest) == Some(value)
  {
    var s := key + "=\"" + value + "\"" + rest;
    var open := key + "=\"";
    assert s[..|open|] == open;
    assert s[|open|..|open| + |value|] == value;
    assert s[|open| + |value|] == Quote;
    assert MatchAt(s, key, 0, value);
    MatchFromIsMatchAt(s, key, 0, value);
  }

  /** The payment terms of a 402 challenge. */
  datatype Challenge = Challenge(amount: string, destination: string)

  /** Both attributes, or nothing: a challenge missing either is not negotiated. */
  function ParseChallenge(header: string): (c: Option<Challenge>)
    ensures c.Some? <==> Find("amount", header).Some? && Find("destination", header).Some?
    ensures c.Some? ==> c.value == Challenge(Find("amount", header).value, Find("destination", header).value)
  {
    match Find("amount", header)
    case None => None
    case Some(amount) =>
      match Find("destination", header)
      case None => None
      case Some(destination) => Some(Challenge(amount, destination))
  }

  /** Parsed terms are non-empty and quote-free, as the regular expression demands. */
  lemma ChallengeWellFormed(header: string)
    requires ParseChallenge(header).Some?
    ensures var c := ParseChallenge(header).value;
      c.amount != [] && Quote !in c.amount && c.destination != [] && Quote !in c.destination
  {
    var c := ParseChallenge(header).value;
    SearchSound("amount", header, 0, c.amount);
    SearchSound("destination", header, 0, c.destination);
  }

  const AuthorizationHeader := "Authorization"
  const ProofHeader := "X-Payment-Proof"

  /** The caller's headers with the proof of payment for `txId` added (replacing any earlier values). */
  function WithProof(headers: map<string, string>, txId: Json): (h: map<string, string>)
    ensures h.Keys == headers.Keys + {AuthorizationHeader, ProofHeader}
    ensures h[AuthorizationHeader] == "L402 " + Str(txId) && h[ProofHeader] == Str(txId)
    ensures forall k :: k in headers && k != AuthorizationHeader && k != ProofHeader ==> h[k] == headers[k]
  {
    headers[AuthorizationHeader := "L402 " + Str(txId)][ProofHeader := Str(txId)]
  }

  /**
   * `_negotiate_paywall`: pays the challenge's amount (as `float` reads it) to its
   * destination with a waiting transfer; a response without both terms is not paid.
   */
  function Negotiate(s: Session, env: Env, resp: HttpResponse, t: Trace): (r: Reply<Option<Receipt>>)
    ensures ParseChallenge(resp.authenticate.GetOr("")).None? ==> r == Reply(Ok(None), t)
    ensures ParseChallenge(resp.authenticate.GetOr("")).Some? ==>
      var c := ParseChallenge(resp.authenticate.GetOr("")).value;
      match env.floatText(c.amount)
      case None => r == Reply(Err(Escaped(BadAmount)), t)
      case Some(amount) =>
        var paid := Payments.Transfer(s, env, c.destination, amount, None, true, t);
        r.trace == paid.trace &&
        r.result == if paid.result.Ok? then Ok(Some(paid.result.value)) else Err(paid.result.error)
  {
    match ParseChallenge(resp.authenticate.GetOr(""))
    case None => Reply(Ok(None), t)
    case Some(c) =>
      match env.floatText(c.amount)
      case None => Reply(Err(Escaped(BadAmount)), t)
      case Some(amount) =>
        var paid := Payments.Transfer(s, env, c.destination, amount, None, true, t);
        match paid.result
        case Ok(receipt) => Reply(Ok(Some(receipt)), paid.trace)
        case Err(e) => Reply(Err(e), paid.trace)
  }

  /** What `smart_fetch` returns, the trace after it, and the caller's headers after it. */
  datatype Fetched = Fetched(result: Result<HttpResponse>, trace: Trace, headers: map<string, string>)

  /**
   * What `smart_fetch` does after a 402 once negotiation has replied `neg`: an error
   * propagates; no payment, or an unsuccessful one, returns the 402 itself; a
   * successful payment adds the proof headers to the caller's dictionary and replays
   * the request once with them, whatever the replay answers.
   */
  function AfterPayment(s: Session, url: string, params: map<string, string>, headers: map<string, string>,
                        resp: HttpResponse, neg: Reply<Option<Receipt>>): (f: Fetched)
    ensures neg.trace.sent <= f.trace.sent && |f.trace.sent| <= |neg.trace.sent| + 1
    ensures f.headers == headers || (neg.result.Ok? && neg.result.value.Some? &&
      f.headers == WithProof(headers, neg.result.value.value.txId))
    ensures f.headers != headers || |f.trace.sent| > |neg.trace.sent| ==>
      neg.result.Ok? && neg.result.value.Some? && Truthy(neg.result.value.value.success) &&
      f.headers == WithProof(headers, neg.result.value.value.txId) &&
      f.trace.sent == neg.trace.sent + [Config.FetchCall(s, url, params, f.headers)]
    ensures neg.result.Err? ==> f == Fetched(Err(neg.result.error), neg.trace, headers)
    ensures neg.result.Ok? && (neg.result.value.None? || !Truthy(neg.result.value.value.success)) ==>
      f == Fetched(Ok(resp), neg.trace, headers)
    ensures neg.result.Ok? && neg.result.value.Some? && Truthy(neg.result.value.value.success) ==>
      var proven := WithProof(headers, neg.result.value.value.txId);
      var replayed := s.net(|neg.trace.sent|);
      f.headers == proven &&
      f.trace == Send(neg.trace, Config.FetchCall(s, url, params, proven)) &&
      f.result == if replayed.Broken? then Err(NetworkError(ConnectionFailed(replayed.cause))) else Ok(replayed.response)
  {
    match neg.result
    case Err(e) => Fetched(Err(e), neg.trace, headers)
    case Ok(receipt) =>
      if receipt.None? || !Truthy(receipt.value.success) then Fetched(Ok(resp), neg.trace, headers)
      else
        var proven := WithProof(headers, receipt.value.txId);
        var t2 := Send(neg.trace, Config.FetchCall(s, url, params, proven));
        match s.net(|neg.trace.sent|)
        case Broken(cause) => Fetched(Err(NetworkError(ConnectionFailed(cause))), t2, proven)
        case Answer(replayed) => Fetched(Ok(replayed), t2, proven)
  }

  /**
   * `smart_fetch`: one GET; on a 402, negotiation and what follows it. Transport
   * failures of the GETs become NetworkErrors at once, without retry.
   */
  function Fetch(s: Session, env: Env, url: string, params: map<string, string>, headers: map<string, string>,
                 t: Trace): (f: Fetched)
    ensures t.sent < f.trace.sent
    ensures s.net(|t.sent|).Broken? ==> f.result == Err(NetworkError(ConnectionFailed(s.net(|t.sent|).cause)))
    ensures f.headers != headers ==> s.net(|t.sent|).Answer? && s.net(|t.sent|).response.status == Retry.PaymentRequired
  {
    var t1 := Send(t, Config.FetchCall(s, url, params, headers));
    match s.net(|t.sent|)
    case Broken(cause) => Fetched(Err(NetworkError(ConnectionFailed(cause))), t1, headers)
    case Answer(resp) =>
      if resp.status != Retry.PaymentRequired then Fetched(Ok(resp), t1, headers)
      else
        var neg := Negotiate(s, env, resp, t1);
        NegotiateKeepsPrefix(s, env, resp, t1);
        assert t1.sent <= neg.trace.sent;
        AfterPayment(s, url, params, headers, resp, neg)
  }

  /** A response other than 402 is returned unchanged after one call, and the caller's headers are untouched. */
  lemma OtherStatusUnchanged(s: Session, env: Env, url: string, params: map<string, string>,
                             headers: map<string, string>, t: Trace)
    requires s.net(|t.sent|).Answer? && s.net(|t.sent|).response.status != Retry.PaymentRequired
    ensures Fetch(s, env, url, params, headers, t) ==
      Fetched(Ok(s.net(|t.sent|).response), Send(t, Config.FetchCall(s, url, params, headers)), headers)
  {
  }

  /**
   * A 402 whose challenge lacks a well-formed amount or destination is returned
   * unchanged: no payment is attempted and nothing is sent after the one GET.
   */
  lemma IncompleteChallengeUnchanged(s: Session, env: Env, url: string, params: map<string, string>,
                                     headers: map<string, string>, t: Trace)
    requires s.net(|t.sent|).Answer? && s.net(|t.sent|).response.status == Retry.PaymentRequired
    requires ParseChallenge(s.net(|t.sent|).response.authenticate.GetOr("")).None?
    ensures Fetch(s, env, url, params, headers, t) ==
      Fetched(Ok(s.net(|t.sent|).response), Send(t, Config.FetchCall(s, url, params, headers)), headers)
  {
  }

  /** A failing GET is a NetworkError at once: smart_fetch does not retry. */
  lemma BrokenFetchIsNetworkError(s: Session, env: Env, url: string, params: map<string, string>,
                                  headers: map<string, string>, t: Trace)
    requires s.net(|t.sent|).Broken?
    ensures Fetch(s, env, url, params, headers, t) ==
      Fetched(Err(NetworkError(ConnectionFailed(s.net(|t.sent|).cause))), Send(t, Config.FetchCall(s, url, params, headers)), headers)
  {
  }

  /** The first request `smart_fetch` makes is the original GET, with the caller's headers as given. */
  lemma FetchStartsWithOriginal(s: Session, env: Env, url: string, params: map<string, string>,
                                headers: map<string, string>, t: Trace)
    ensures var f := Fetch(s, env, url, params, headers, t);
      |f.trace.sent| > |t.sent| && f.trace.sent[..|t.sent|] == t.sent &&
      f.trace.sent[|t.sent|] == Config.FetchCall(s, url, params, headers)
  {
    var t1 := Send(t, Config.FetchCall(s, url, params, headers));
    var f := Fetch(s, env, url, params, headers, t);
    if s.net(|t.sent|).Answer? && s.net(|t.sent|).response.status == Retry.PaymentRequired {
      NegotiateKeepsPrefix(s, env, s.net(|t.sent|).response, t1);
    }
    assert t1.sent <= f.trace.sent;
  }

  /**
   * The caller's headers are either left alone, or gain exactly the two proof
   * headers after a successful payment; in the latter case the last request made is
   * the one replay, carrying them.
   */
  lemma HeadersOnlyGainProof(s: Session, env: Env, url: string, params: map<string, string>,
                             headers: map<string, string>, t: Trace)
    ensures var f := Fetch(s, env, url, params, headers, t);
      f.headers == headers ||
      exists txId :: f.headers == WithProof(headers, txId) &&
        f.trace.sent[|f.trace.sent| - 1] == Config.FetchCall(s, url, params, f.headers)
  {
    var f := Fetch(s, env, url, params, headers, t);
    if f.headers != headers {
      var resp := s.net(|t.sent|).response;
      var neg := Negotiate(s, env, resp, Send(t, Config.FetchCall(s, url, params, headers)));
      assert f.headers == WithProof(headers, neg.result.value.value.txId);
    }
  }

  /**
   * A 402 whose challenge is paid successfully: the request after the original GET
   * pays the challenge's amount to its destination, the caller's headers gain the
   * proof for the paid transaction, and the one request after the payment is the
   * replay carrying them, whose answer (or transport failure) is the result.
   */
  lemma PaidChallengeReplays(s: Session, env: Env, url: string, params: map<string, string>,
                             headers: map<string, string>, t: Trace, c: Challenge, amount: string)
    requires s.net(|t.sent|).Answer? && s.net(|t.sent|).response.status == Retry.PaymentRequired
    requires ParseChallenge(s.net(|t.sent|).response.authenticate.GetOr("")) == Some(c)
    requires env.floatText(c.amount) == Some(amount)
    requires var paid := Payments.Transfer(s, env, c.destination, amount, None, true,
                                            Send(t, Config.FetchCall(s, url, params, headers)));
      paid.result.Ok? && Truthy(paid.result.value.success)
    ensures var t1 := Send(t, Config.FetchCall(s, url, params, headers));
      var paid := Payments.Transfer(s, env, c.destination, amount, None, true, t1);
      var proven := WithProof(headers, paid.result.value.txId);
      var replayed := s.net(|paid.trace.sent|);
      var f := Fetch(s, env, url, params, headers, t);
      paid.trace.sent[|t1.sent|] ==
        Payments.PayCall(s, c.destination, amount, env.sha256(Payments.Intent(c.destination, amount, env.hour))) &&
      f.headers == proven &&
      f.trace == Send(paid.trace, Config.FetchCall(s, url, params, proven)) &&
      f.result == if replayed.Broken? then Err(NetworkError(ConnectionFailed(replayed.cause))) else Ok(replayed.response)
  {
    var resp := s.net(|t.sent|).response;
    var t1 := Send(t, Config.FetchCall(s, url, params, headers));
    var paid := Payments.Transfer(s, env, c.destination, amount, None, true, t1);
    assert Negotiate(s, env, resp, t1) == Reply(Ok(Some(paid.result.value)), paid.trace);
    Payments.TransferPostsKeyFirst(s, env, c.destination, amount, None, true, t1);
  }

  /** Negotiation never rewrites what was recorded before it. */
  lemma NegotiateKeepsPrefix(s: Session, env: Env, resp: HttpResponse, t: Trace)
    ensures var r := Negotiate(s, env, resp, t);
      |t.sent| <= |r.trace.sent| && r.trace.sent[..|t.sent|] == t.sent
  {
    match ParseChallenge(resp.authenticate.GetOr(""))
    case None =>
    case Some(c) =>
      match env.floatText(c.amount)
      case None =>
      case Some(amount) =>
        Payments.TransferPostsKeyFirst(s, env, c.destination, amount, None, true, t);
  }

  /**
   * A payable challenge is paid by exactly one transfer, whose first request pays the
   * challenge's amount to its destination under the key derived for that intent.
   */
  lemma PayableChallengePays(s: Session, env: Env, resp: HttpResponse, t: Trace)
    requires ParseChallenge(resp.authenticate.GetOr("")).Some?
    requires env.floatText(ParseChallenge(resp.authenticate.GetOr("")).value.amount).Some?
    ensures var c := ParseChallenge(resp.authenticate.GetOr("")).value;
      var amount := env.floatText(c.amount).value;
      var r := Negotiate(s, env, resp, t);
      |r.trace.sent| > |t.sent| &&
      r.trace.sent[|t.sent|] == Payments.PayCall(s, c.destination, amount,
        env.sha256(Payments.Intent(c.destination, amount, env.hour)))
  {
    var c := ParseChallenge(resp.authenticate.GetOr("")).value;
    Payments.TransferPostsKeyFirst(s, env, c.destination, env.floatText(c.amount).value, None, true, t);
  }
}

=== FILE: pyvalues.dfy ===
/**
 * Decoded JSON values, with the Python operations the client applies to them:
 * truth testing, `dict.get`, `str()` of a scalar and ASCII `str.upper()`.
 */
module PyValues {

  /**
   * A JSON document as `json.loads` hands it over. A number keeps the text that
   * Python's `str()` renders for the decoded `int` or `float` (`10`, `10.0`).
   */
  datatype Json =
    | JNull
    | JBool(b: bool)
    | JNum(repr: string)
    | JStr(s: string)
    | JArr(items: seq<Json>)
    | JObj(fields: map<string, Json>)

  /** The empty dictionary `{}`. */
  const EmptyObject: Json := JObj(map[])

  /** Python truth testing: `None`, `False`, zero, and empty strings, lists and dicts are false. */
  predicate Truthy(j: Json) {
    match j
    case JNull => false
    case JBool(b) => b
    case JNum(repr) => repr != "0" && repr != "0.0" && repr != "-0.0"
    case JStr(s) => s != ""
    case JArr(items) => items != []
    case JObj(fields) => fields != map[]
  }

  /** `d.get(key, default)` on a dictionary: a present key wins, even when its value is `None`. */
  function Lookup(fields: map<string, Json>, key: string, default: Json): Json {
    if key in fields then fields[key] else default
  }

  /**
   * Python's `str()` of a scalar. The rendering of a list or a dictionary depends on
   * insertion order, which a `map` does not keep, and is not modelled: it yields "".
   */
  function Str(j: Json): string {
    match j
    case JNull => "None"
    case JBool(b) => if b then "True" else "False"
    case JNum(repr) => repr
    case JStr(s) => s
    case JArr(_) => ""
    case JObj(_) => ""
  }

  /** Upper-case form of one character (ASCII letters only). */
  function UpperChar(c: char): (u: char)
    ensures 'a' <= c <= 'z' ==> 'A' <= u <= 'Z'
    ensures !('a' <= c <= 'z') ==> u == c
  {
    if 'a' <= c <= 'z' then (c as int - 'a' as int + 'A' as int) as char else c
  }

  /** `s.upper()`, restricted to ASCII letters. */
  function Upper(s: string): (u: string)
    ensures |u| == |s|
    ensures forall k :: 0 <= k < |s| ==> u[k] == UpperChar(s[k])
  {
    if s == [] then [] else [UpperChar(s[0])] + Upper(s[1..])
  }

  /** Upper-casing twice gives the same as upper-casing once. */
  lemma UpperIdempotent(s: string)
    ensures Upper(Upper(s)) == Upper(s)
  {
    assert forall k :: 0 <= k < |s| ==> UpperChar(UpperChar(s[k])) == UpperChar(s[k]);
  }

  /** The value of one decimal digit character. */
  function DigitValue(c: char): int {
    c as int - '0' as int
  }

  /** The number a string of decimal digits denotes, read left to right. */
  function DigitsValue(d: string): int {
    if d == [] then 0 else 10 * DigitsValue(d[..|d| - 1]) + DigitValue(d[|d| - 1])
  }

  /** Decimal digits of a natural number, as Python's `str()` writes them: no leading zero, denoting `n`. */
  function Decimal(n: nat): (d: string)
    ensures d != []
    ensures forall k :: 0 <= k < |d| ==> '0' <= d[k] <= '9'
    ensures n < 10 <==> |d| == 1
    ensures |d| > 1 ==> d[0] != '0'
    ensures DigitsValue(d) == n
  {
    if n < 10 then [(n + '0' as int) as char]
    else
      var front := Decimal(n / 10);
      var d := front + Decimal(n % 10);
      assert d[..|d| - 1] == front;
      d
  }

  /** Python's `str()` of an integer: a minus sign before negative values, then the digits of its magnitude. */
  function IntText(i: int): (d: string)
    ensures d != []
    ensures i < 0 <==> d[0] == '-'
    ensures forall k :: (if i < 0 then 1 else 0) <= k < |d| ==> '0' <= d[k] <= '9'
    ensures |d| > (if i < 0 then 2 else 1) ==> d[if i < 0 then 1 else 0] != '0'
    ensures i < 0 ==> |d| > 1 && -DigitsValue(d[1..]) == i
    ensures i >= 0 ==> DigitsValue(d) == i
  {
    if i < 0 then
      var d := "-" + Decimal(-i);
      assert d[1..] == Decimal(-i);
      d
    else Decimal(i)
  }
}

=== FILE: retry.dfy ===
/**
 * The retry executor behind every API call: at most four attempts, each of which
 * classifies what the transport reported, with exponential backoff between them.
 */
module Retry {
  import opened Options
  import opened PyValues
  import opened Errors
  import opened Wire

  const MaxRetries: nat := 3
  const MaxAttempts: nat := MaxRetries + 1
  const PaymentRequired: int := 402

  /** 500, 502, 503 and 504 are transient. */
  predicate Transient(status: int) {
    status == 500 || status == 502 || status == 503 || status == 504
  }

  predicate Unauthorized(status: int) {
    status == 401 || status == 403
  }

  /** Statuses the executor refuses: every status from 400 up except 402. */
  predicate Rejected(status: int) {
    status >= 400 && status != PaymentRequired
  }

  /** An outcome that is retried while attempts remain. */
  predicate Retryable(o: Outcome) {
    o.Broken? || Transient(o.response.status)
  }

  /** The transport's answer to call number `i` is retryable. */
  predicate RetryableAt(s: Session, i: nat) {
    Retryable(s.net(i))
  }

  function Pow2(n: nat): (p: nat)
    ensures p >= 1
  {
    if n == 0 then 1 else 2 * Pow2(n - 1)
  }

  /** The delay after a failed attempt, in milliseconds: 0.5 * 2^attempt seconds. */
  function BackoffMs(attempt: nat): nat {
    500 * Pow2(attempt)
  }

  /** The delays asked for after `n` failed attempts numbered from `from`. */
  function Backoffs(from: nat, n: nat): (ds: seq<nat>)
    ensures |ds| == n
    ensures forall k :: 0 <= k < n ==> ds[k] == BackoffMs(from + k)
    decreases n
  {
    if n == 0 then [] else [BackoffMs(from)] + Backoffs(from + 1, n - 1)
  }

  /** `n` copies of one call. */
  function Repeat(c: Call, n: nat): (cs: seq<Call>)
    ensures |cs| == n && forall k :: 0 <= k < n ==> cs[k] == c
  {
    seq(n, _ => c)
  }

  /** `response.json()`: None when the body is empty or not JSON (the call raises). */
  function Decoded(resp: HttpResponse): Option<Json> {
    if resp.text == "" then None else resp.json
  }

  /** The value an accepted response yields: its JSON, or `{}` for an empty body. */
  function Body(resp: HttpResponse): (r: Result<Json>)
    ensures resp.text == "" ==> r == Ok(EmptyObject)
    ensures resp.text != "" && resp.json.Some? ==> r == Ok(resp.json.value)
    ensures resp.text != "" && resp.json.None? ==> r == Err(Escaped(BodyNotJson))
  {
    if resp.text == "" then Ok(EmptyObject)
    else match resp.json
      case None => Err(Escaped(BodyNotJson))
      case Some(j) => Ok(j)
  }

  /** The first 512 characters of a text. */
  function Excerpt(text: string): (e: string)
    ensures e <= text
    ensures |e| == if |text| < 512 then |text| else 512
  {
    text[..if |text| < 512 then |text| else 512]
  }

  /**
   * The argument of the PaymentError raised for a rejected response: the `error`
   * field of a JSON object body (the whole text when it has none), otherwise a
   * message built from the status, the endpoint and an excerpt of the body.
   */
  function RejectionDetail(resp: HttpResponse, endpoint: string): (d: Json)
    ensures resp.text != "" && resp.json.Some? && resp.json.value.JObj? ==>
      d == Lookup(resp.json.value.fields, "error", JStr(resp.text))
    ensures !(resp.text != "" && resp.json.Some? && resp.json.value.JObj?) ==>
      d == JStr("HTTP " + IntText(resp.status) + " at " + endpoint + ": " + Excerpt(resp.text))
  {
    match Decoded(resp)
    case Some(JObj(fields)) => Lookup(fields, "error", JStr(resp.text))
    case _ => JStr("HTTP " + IntText(resp.status) + " at " + endpoint + ": " + Excerpt(resp.text))
  }

  /** What one attempt decides: wait and try again, or finish with a result. */
  datatype Verdict = Backoff(delay: nat) | Settle(result: Result<Json>)

  /** The decision attempt number `attempt` (from 0) takes on what the transport reported. */
  function Classify(o: Outcome, attempt: nat, endpoint: string): (v: Verdict)
    requires attempt <= MaxRetries
    ensures v.Backoff? <==> Retryable(o) && attempt < MaxRetries
    ensures v.Backoff? ==> v.delay == BackoffMs(attempt)
    ensures v.Settle? && v.result.Ok? ==> o.Answer? && !Rejected(o.response.status)
    ensures o.Broken? && attempt == MaxRetries ==> v == Settle(Err(NetworkError(ConnectionFailed(o.cause))))
    ensures v.Settle? && v.result.Err? && v.result.error.NetworkError? ==> o.Broken?
    ensures o.Answer? && Unauthorized(o.response.status) ==> v == Settle(Err(AuthError("Unauthorized: " + o.response.text)))
    ensures o.Answer? && !Rejected(o.response.status) && !Transient(o.response.status) ==> v == Settle(Body(o.response))
    ensures o.Answer? && Rejected(o.response.status) && !Unauthorized(o.response.status) &&
            !(Transient(o.response.status) && attempt < MaxRetries) ==>
      v == Settle(Err(PaymentError(RejectionDetail(o.response, endpoint))))
  {
    match o
    case Broken(cause) =>
      if attempt == MaxRetries then Settle(Err(NetworkError(ConnectionFailed(cause))))
      else Backoff(BackoffMs(attempt))
    case Answer(resp) =>
      if Transient(resp.status) && attempt < MaxRetries then Backoff(BackoffMs(attempt))
      else if Unauthorized(resp.status) then Settle(Err(AuthError("Unauthorized: " + resp.text)))
      else if Rejected(resp.status) then Settle(Err(PaymentError(RejectionDetail(resp, endpoint))))
      else Settle(Body(resp))
  }

  /**
   * The executor from attempt `attempt` on: the attempt hands `call` to the transport,
   * which answers with the outcome numbered by the calls made so far; a backoff
   * records its delay and moves to the next attempt.
   */
  function Execute(s: Session, call: Call, t: Trace, attempt: nat): (r: Reply<Json>)
    requires attempt <= MaxRetries
    ensures |t.sent| < |r.trace.sent| <= |t.sent| + MaxAttempts - attempt
    decreases MaxRetries - attempt
  {
    var t1 := Send(t, call);
    match Classify(s.net(|t.sent|), attempt, call.target)
    case Backoff(ms) => Execute(s, call, Sleep(t1, ms), attempt + 1)
    case Settle(res) => Reply(res, t1)
  }

  /**
   * What the executor leaves behind: every call it made is the same request, and
   * between consecutive calls it asked for the delays 0.5 s, 1 s, 2 s in turn.
   */
  lemma {:induction false} ExecuteTrace(s: Session, call: Call, t: Trace, attempt: nat)
    requires attempt <= MaxRetries
    ensures var r := Execute(s, call, t, attempt);
      r.trace.sent == t.sent + Repeat(call, |r.trace.sent| - |t.sent|) &&
      r.trace.sleeps == t.sleeps + Backoffs(attempt, |r.trace.sent| - |t.sent| - 1)
    decreases MaxRetries - attempt
  {
    match Classify(s.net(|t.sent|), attempt, call.target)
    case Backoff(ms) =>
      var t2 := Sleep(Send(t, call), ms);
      ExecuteTrace(s, call, t2, attempt + 1);
      var n := |Execute(s, call, t2, attempt + 1).trace.sent| - |t2.sent|;
      RepeatAfter(t.sent, call, n);
      BackoffsAfter(t.sleeps, attempt, n - 1);
    case Settle(res) =>
      assert Repeat(call, 1) == [call];
  }

  /** One more copy of a call, split off at the front. */
  lemma RepeatAfter(prefix: seq<Call>, c: Call, n: nat)
    ensures prefix + Repeat(c, n + 1) == (prefix + [c]) + Repeat(c, n)
  {
    assert Repeat(c, n + 1) == [c] + Repeat(c, n);
  }

  /** One more delay, split off at the front. */
  lemma BackoffsAfter(prefix: seq<nat>, from: nat, n: nat)
    ensures prefix + Backoffs(from, n + 1) == (prefix + [BackoffMs(from)]) + Backoffs(from + 1, n)
  {
  }

  /** The trace after `n` attempts from number `attempt` that each sent `call` and backed off. */
  function BackedOff(call: Call, t: Trace, attempt: nat, n: nat): Trace
    decreases n
  {
    if n == 0 then t else BackedOff(call, Sleep(Send(t, call), BackoffMs(attempt)), attempt + 1, n - 1)
  }

  /** n back-offs append n copies of the request and the n doubling delays from `attempt` on. */
  lemma {:induction false} BackedOffTrace(call: Call, t: Trace, attempt: nat, n: nat)
    ensures BackedOff(call, t, attempt, n) == Trace(t.sent + Repeat(call, n), t.sleeps + Backoffs(attempt, n))
    decreases n
  {
    if n > 0 {
      BackedOffTrace(call, Sleep(Send(t, call), BackoffMs(attempt)), attempt + 1, n - 1);
      RepeatAfter(t.sent, call, n - 1);
      BackoffsAfter(t.sleeps, attempt, n - 1);
    } else {
      assert t.sent + Repeat(call, 0) == t.sent;
      assert t.sleeps + Backoffs(attempt, 0) == t.sleeps;
    }
  }

  /** `n` attempts in a row that meet retryable outcomes hand the request on to attempt `attempt + n`. */
  lemma {:induction false} RetriesCarryOn(s: Session, call: Call, t: Trace, attempt: nat, n: nat)
    requires attempt + n <= MaxRetries
    requires forall i :: |t.sent| <= i < |t.sent| + n ==> RetryableAt(s, i)
    ensures Execute(s, call, t, attempt) == Execute(s, call, BackedOff(call, t, attempt, n), attempt + n)
    decreases n
  {
    if n > 0 {
      var t1 := Sleep(Send(t, call), BackoffMs(attempt));
      BackoffStep(s, call, t, attempt);
      assert |t1.sent| == |t.sent| + 1;
      RetriesCarryOn(s, call, t1, attempt + 1, n - 1);
    }
  }

  /** An attempt that meets a retryable outcome with attempts left backs off and moves on. */
  lemma BackoffStep(s: Session, call: Call, t: Trace, attempt: nat)
    requires attempt < MaxRetries && RetryableAt(s, |t.sent|)
    ensures Execute(s, call, t, attempt) == Execute(s, call, Sleep(Send(t, call), BackoffMs(attempt)), attempt + 1)
  {
  }

  /**
   * Fewer than four transient failures followed by an accepted response: the caller
   * gets that response's body, after exactly `n + 1` calls and the backoffs
   * 0.5 s, 1 s, 2 s, ... between them.
   */
  lemma RecoversAfterTransient(s: Session, call: Call, t: Trace, n: nat)
    requires n <= MaxRetries
    requires forall i :: |t.sent| <= i < |t.sent| + n ==> RetryableAt(s, i)
    requires s.net(|t.sent| + n).Answer?
    requires !Rejected(s.net(|t.sent| + n).response.status)
    ensures Execute(s, call, t, 0).result == Body(s.net(|t.sent| + n).response)
    ensures Execute(s, call, t, 0).trace == Trace(t.sent + Repeat(call, n + 1), t.sleeps + Backoffs(0, n))
  {
    RetriesCarryOn(s, call, t, 0, n);
    BackedOffTrace(call, t, 0, n);
    var tn := BackedOff(call, t, 0, n);
    assert |tn.sent| == |t.sent| + n;
    assert Repeat(call, n + 1) == Repeat(call, n) + [call];
  }

  /**
   * Four retryable outcomes in a row exhaust the budget: the last decides the error,
   * a NetworkError for a transport failure and a PaymentError for a 5xx, after
   * exactly four calls and three backoffs.
   */
  lemma ExhaustsAfterFourAttempts(s: Session, call: Call, t: Trace)
    requires forall i :: |t.sent| <= i < |t.sent| + MaxAttempts ==> RetryableAt(s, i)
    ensures var last := s.net(|t.sent| + MaxRetries);
      Execute(s, call, t, 0).result ==
        if last.Broken? then Err(NetworkError(ConnectionFailed(last.cause)))
        else Err(PaymentError(RejectionDetail(last.response, call.target)))
    ensures Execute(s, call, t, 0).trace == Trace(t.sent + Repeat(call, MaxAttempts), t.sleeps + [500, 1000, 2000])
  {
    RetriesCarryOn(s, call, t, 0, MaxRetries);
    BackedOffTrace(call, t, 0, MaxRetries);
    var tn := BackedOff(call, t, 0, MaxRetries);
    assert |tn.sent| == |t.sent| + MaxRetries;
    assert RetryableAt(s, |tn.sent|);
    assert Execute(s, call, tn, MaxRetries) == Reply(Execute(s, call, tn, MaxRetries).result, Send(tn, call));
    assert tn.sent + [call] == t.sent + Repeat(call, MaxAttempts);
    assert Backoffs(0, MaxRetries) == [500, 1000, 2000];
  }

  /**
   * A successful result always comes from an accepted response: the last call was
   * answered (no transport failure) with a status below 400 or 402.
   */
  lemma {:induction false} OkOnlyFromAccepted(s: Session, call: Call, t: Trace, attempt: nat)
    requires attempt <= MaxRetries
    requires Execute(s, call, t, attempt).result.Ok?
    ensures var last := s.net(|Execute(s, call, t, attempt).trace.sent| - 1);
      last.Answer? && !Rejected(last.response.status)
    decreases MaxRetries - attempt
  {
    var t1 := Send(t, call);
    match Classify(s.net(|t.sent|), attempt, call.target)
    case Backoff(ms) =>
      OkOnlyFromAccepted(s, call, Sleep(t1, ms), attempt + 1);
    case Settle(res) =>
  }

  /** 401 and 403 end the call at once with an AuthError: no retry, no further call. */
  lemma UnauthorizedIsFinal(s: Session, call: Call, t: Trace, attempt: nat)
    requires attempt <= MaxRetries
    requires s.net(|t.sent|).Answer? && Unauthorized(s.net(|t.sent|).response.status)
    ensures Execute(s, call, t, attempt) ==
      Reply(Err(AuthError("Unauthorized: " + s.net(|t.sent|).response.text)), Send(t, call))
  {
  }

  /**
   * Any other status of 400 or more, except 402 (a 5xx only once no attempt is
   * left), ends the call at once with a PaymentError carrying the rejection detail.
   */
  lemma RejectedIsFinal(s: Session, call: Call, t: Trace, attempt: nat)
    requires attempt <= MaxRetries
    requires s.net(|t.sent|).Answer?
    requires var status := s.net(|t.sent|).response.status;
      Rejected(status) && !Unauthorized(status) && !(Transient(status) && attempt < MaxRetries)
    ensures Execute(s, call, t, attempt) ==
      Reply(Err(PaymentError(RejectionDetail(s.net(|t.sent|).response, call.target))), Send(t, call))
  {
  }

  /** A 402 is not an error at this layer: its body is handed back, on the first call that sees it. */
  lemma PaymentRequiredIsReturned(s: Session, call: Call, t: Trace, attempt: nat)
    requires attempt <= MaxRetries
    requires s.net(|t.sent|).Answer? && s.net(|t.sent|).response.status == PaymentRequired
    ensures Execute(s, call, t, attempt) == Reply(Body(s.net(|t.sent|).response), Send(t, call))
  {
  }
}

=== FILE: settlement.dfy ===
/**
 * The settlement poller: asks for a transaction's state until it is terminal or the
 * 30-second window closes, two seconds apart.
 */
module Settlement {
  import opened Options
  import opened PyValues
  import opened Errors
  import opened Wire
  import opened Models
  import Config
  import Retry

  const PollIntervalMs: nat := 2000
  const TransactionPath := "/api/v1/agent/transaction/"

  /** The server-reported state, mapped at the edge into a closed variant. */
  datatype ServerState = Settled | Failing | Open

  /** Reads a state string case-insensitively: COMPLETE and COMPLETED settle, FAILED fails, anything else is open. */
  function ReadState(state: string): (st: ServerState)
    ensures st == Settled <==> Upper(state) == "COMPLETE" || Upper(state) == "COMPLETED"
    ensures st == Failing <==> Upper(state) == "FAILED"
  {
    var u := Upper(state);
    if u == "COMPLETE" || u == "COMPLETED" then Settled
    else if u == "FAILED" then Failing
    else Open
  }

  /** Strings that differ only in the case of their letters read as the same state. */
  lemma ReadStateIgnoresCase(a: string, b: string)
    requires Upper(a) == Upper(b)
    ensures ReadState(a) == ReadState(b)
  {
  }

  /** A state reads the same as its upper-case form. */
  lemma ReadStateOfUpper(state: string)
    ensures ReadState(Upper(state)) == ReadState(state)
  {
    UpperIdempotent(state);
  }

  /** `upper` is the upper-case form of `s`, checked character by character. */
  lemma UpperIs(s: string, upper: string)
    requires |s| == |upper| && forall k :: 0 <= k < |s| ==> UpperChar(s[k]) == upper[k]
    ensures Upper(s) == upper
  {
  }

  /** "complete", in lower case, settles. */
  lemma LowerCaseCompleteSettles()
    ensures ReadState("complete") == Settled
  {
    forall k | 0 <= k < 8 ensures UpperChar("complete"[k]) == "COMPLETE"[k] { }
    UpperIs("complete", "COMPLETE");
  }

  /** "Completed", capitalised, settles. */
  lemma CapitalisedCompletedSettles()
    ensures ReadState("Completed") == Settled
  {
    forall k | 0 <= k < 9 ensures UpperChar("Completed"[k]) == "COMPLETED"[k] { }
    UpperIs("Completed", "COMPLETED");
  }

  /** "COMPLETED", as the service reports it, settles. */
  lemma CompletedSettles()
    ensures ReadState("COMPLETED") == Settled
  {
    forall k | 0 <= k < 9 ensures UpperChar("COMPLETED"[k]) == "COMPLETED"[k] { }
    UpperIs("COMPLETED", "COMPLETED");
  }

  /** "failed", in lower case, fails. */
  lemma LowerCaseFailedFails()
    ensures ReadState("failed") == Failing
  {
    forall k | 0 <= k < 6 ensures UpperChar("failed"[k]) == "FAILED"[k] { }
    UpperIs("failed", "FAILED");
  }

  function PollPath(txId: Json): string {
    TransactionPath + Str(txId)
  }

  /** The receipt the poller returns when its window closes without a terminal state. */
  function TimedOut(txId: Json): Receipt {
    Receipt(JBool(true), Pending, txId, JNull, JNull)
  }

  /** What one poll response decides. */
  datatype PollVerdict = KeepPolling | Resolved(result: Result<Receipt>)

  /**
   * One poll response: a settled state yields a COMPLETE receipt carrying the
   * server's txHash, a failed one a PaymentError with the server's reason, and any
   * other state keeps polling. A body that is not an object, or a state that is not
   * a string, raises.
   */
  function Judge(data: Json, txId: Json): (v: PollVerdict)
    ensures !data.JObj? ==> v == Resolved(Err(Escaped(NotAnObject)))
    ensures data.JObj? && !Lookup(data.fields, "state", JStr("")).JStr? ==> v == Resolved(Err(Escaped(NotAString)))
    ensures v.Resolved? && v.result.Ok? ==>
      data.JObj? && Lookup(data.fields, "state", JStr("")).JStr? &&
      ReadState(Lookup(data.fields, "state", JStr("")).s) == Settled && v.result.value == Receipt(JBool(true), Complete, txId, Lookup(data.fields, "txHash", JNull), JNull)
    ensures v.KeepPolling? <==>
      data.JObj? && Lookup(data.fields, "state", JStr("")).JStr? &&
      ReadState(Lookup(data.fields, "state", JStr("")).s) == Open
  {
    match data
    case JObj(f) =>
      (match Lookup(f, "state", JStr(""))
       case JStr(state) =>
         (match ReadState(state)
          case Settled => Resolved(Ok(Receipt(JBool(true), Complete, txId, Lookup(f, "txHash", JNull), JNull)))
          case Failing => Resolved(Err(PaymentError(JStr("Transfer Failed: " + Str(Lookup(f, "errorReason", JNull))))))
          case Open => KeepPolling)
       case _ => Resolved(Err(Escaped(NotAString))))
    case _ => Resolved(Err(Escaped(NotAnObject)))
  }

  /**
   * The poller with `budget` passes of its clock check left. Every receipt it
   * returns reports success for the same transaction, either COMPLETE or, once the
   * window has closed, PENDING.
   */
  function Poll(s: Session, txId: Json, t: Trace, budget: nat): (r: Reply<Receipt>)
    ensures r.result.Ok? ==> r.result.value.success == JBool(true) && r.result.value.txId == txId
    ensures r.result.Ok? ==> r.result.value.status == Complete || r.result.value == TimedOut(txId)
    ensures |t.sent| <= |r.trace.sent|
    ensures budget > 0 ==>
      var polled := Retry.Execute(s, Config.ApiCall(s, Get, PollPath(txId), None), t, 0);
      polled.result.Err? ==> r == Reply(Err(polled.result.error), polled.trace)
    decreases budget
  {
    if budget == 0 then Reply(Ok(TimedOut(txId)), t)
    else
      var polled := Retry.Execute(s, Config.ApiCall(s, Get, PollPath(txId), None), t, 0);
      match polled.result
      case Err(e) => Reply(Err(e), polled.trace)
      case Ok(data) =>
        match Judge(data, txId)
        case Resolved(res) => Reply(res, polled.trace)
        case KeepPolling => Poll(s, txId, Sleep(polled.trace, PollIntervalMs), budget - 1)
  }

  /** Each pass of the poller makes at most four calls, so the whole poll makes at most 4 * budget. */
  lemma {:induction false} PollCallsBounded(s: Session, txId: Json, t: Trace, budget: nat)
    ensures |Poll(s, txId, t, budget).trace.sent| <= |t.sent| + Retry.MaxAttempts * budget
    decreases budget
  {
    if budget > 0 {
      var polled := Retry.Execute(s, Config.ApiCall(s, Get, PollPath(txId), None), t, 0);
      if polled.result.Ok? && Judge(polled.result.value, txId).KeepPolling? {
        PollCallsBounded(s, txId, Sleep(polled.trace, PollIntervalMs), budget - 1);
      }
    }
  }

  /** A closed window returns the PENDING receipt at once, without a call. */
  lemma TimeoutWithoutCalls(s: Session, txId: Json, t: Trace)
    ensures Poll(s, txId, t, 0) == Reply(Ok(TimedOut(txId)), t)
  {
  }

  /** The first poll that reads COMPLETE or COMPLETED, in any case, ends the poll with the server's txHash. */
  lemma SettledEndsPoll(s: Session, txId: Json, t: Trace, budget: nat, f: map<string, Json>, state: string)
    requires budget > 0
    requires Retry.Execute(s, Config.ApiCall(s, Get, PollPath(txId), None), t, 0).result == Ok(JObj(f))
    requires "state" in f && f["state"] == JStr(state) && ReadState(state) == Settled
    ensures Poll(s, txId, t, budget).result ==
      Ok(Receipt(JBool(true), Complete, txId, Lookup(f, "txHash", JNull), JNull))
  {
  }

  /**
   * Any other state keeps polling: after two seconds the next pass starts, with one
   * pass fewer left.
   */
  lemma OpenKeepsPolling(s: Session, txId: Json, t: Trace, budget: nat, f: map<string, Json>, state: string)
    requires budget > 0
    requires Retry.Execute(s, Config.ApiCall(s, Get, PollPath(txId), None), t, 0).result == Ok(JObj(f))
    requires Lookup(f, "state", JStr("")) == JStr(state) && ReadState(state) == Open
    ensures var polled := Retry.Execute(s, Config.ApiCall(s, Get, PollPath(txId), None), t, 0);
      Poll(s, txId, t, budget) == Poll(s, txId, Sleep(polled.trace, PollIntervalMs), budget - 1)
  {
  }

  /** A FAILED state is raised as a PaymentError, not returned as a receipt. */
  lemma FailedRaises(s: Session, txId: Json, t: Trace, budget: nat, f: map<string, Json>, state: string)
    requires budget > 0
    requires Retry.Execute(s, Config.ApiCall(s, Get, PollPath(txId), None), t, 0).result == Ok(JObj(f))
    requires "state" in f && f["state"] == JStr(state) && ReadState(state) == Failing
    ensures Poll(s, txId, t, budget).result ==
      Err(PaymentError(JStr("Transfer Failed: " + Str(Lookup(f, "errorReason", JNull)))))
  {
  }
}

=== FILE: wire.dfy ===
/**
 * What the client exchanges with the outside world: the requests it hands to the
 * transport, the outcomes the transport reports, and the record of both.
 */
module Wire {
  import opened Options
  import opened PyValues
  import opened Errors

  datatype Verb = Get | Post

  /** One HTTP response: status, raw text, the text decoded as JSON (None when it is not JSON), and the WWW-Authenticate header. */
  datatype HttpResponse = HttpResponse(status: int, text: string, json: Option<Json>, authenticate: Option<string>)

  /** What one transport call yields: an `httpx.RequestError`, or a response. */
  datatype Outcome = Broken(cause: string) | Answer(response: HttpResponse)

  /**
   * One request handed to the transport. `base` is the session's base URL when the
   * session client sends it, None for a standalone client; `headers` are the headers
   * the request carries, session defaults included.
   */
  datatype Call = Call(
    verb: Verb, base: Option<string>, target: string, params: map<string, string>,
    headers: map<string, string>, payload: Option<map<string, string>>)

  /** Every request handed to the transport and every delay asked for (milliseconds), in order. */
  datatype Trace = Trace(sent: seq<Call>, sleeps: seq<nat>)

  /** The result of an operation together with the trace after it. */
  datatype Reply<+T> = Reply(result: Result<T>, trace: Trace)

  /**
   * The session: its key, its resolved base URL and its transport, which answers
   * its n-th call (counted from 0 over the session's lifetime) with `net(n)`.
   */
  datatype Session = Session(apiKey: string, baseUrl: string, net: nat -> Outcome)

  /**
   * The rest of the environment: the current hour as `%Y-%m-%d-%H`, how many passes
   * the settlement poller's 30-second clock check allows, SHA-256 as a hex digest, and
   * `str(float(x))` (None when `float` raises).
   */
  datatype Env = Env(hour: string, pollBudget: nat, sha256: string -> string, floatText: string -> Option<string>)

  /** `t` after handing `c` to the transport. */
  function Send(t: Trace, c: Call): Trace {
    t.(sent := t.sent + [c])
  }

  /** `t` after asking for a delay of `ms` milliseconds. */
  function Sleep(t: Trace, ms: nat): Trace {
    t.(sleeps := t.sleeps + [ms])
  }
}
